=== FILE: README.md ===
# pybitcointools composite operations in Dafny

This project models `bitcoin/composite.py` of pybitcointools. That module composes lower-level
primitives into whole operations:

- **Coinvault.** `setup_coinvault_tx` lays out empty signature slots in front of an m-of-n
  redeem script on every input. `sign_coinvault_tx` lets one co-signer at a time fill the
  slots of their key. Once an input holds `k` signatures, its script is compacted to
  `[None] + first k signatures + [redeem script]`.
- **BIP32 multisig.** `bip32_hdm_script` and `bip32_hdm_addr` sort the derived public keys
  before building the script, so the order of the keys does not matter. The keys can be
  passed as a list (`keys, req, path`) or variadically (long key strings, then the threshold,
  then the path indices).
- **Sending.** `sendmultitx`, `preparemultitx`, `send` and `preparetx` parse each
  `"address:value"` request and sum the values. They ask coin selection for that total plus
  the fee. They then lay out the `mksend` arguments in this order: selected inputs, requests,
  change address, fee.
- **Inspection.** `inspect` resolves every input to the previous output it spends. It reports:
  - the fee, which is the input total minus the output total and may be negative;
  - the input total per address;
  - the outputs, in order.
- **Helpers.** The `hashes.index` lookup of `merkle_prove`, and the integer formula of
  `estimate_tx_size`.

Modules, one per file:

| module | file | contents |
|---|---|---|
| `Results` | `results.dfy` | Python exceptions as `Result`, plus `Option` |
| `PyValues` | `pyvalues.dfy` | dynamically typed arguments; `len`, iteration, `int()`, `str()`, `split` and slicing as Python 2 does them |
| `Transactions` | `transactions.dfy` | deserialized transactions; script items (`None`, numbers, data) and their truthiness |
| `StringOrder` | `stringorder.dfy` | Python 2 string order; `sorted` |
| `Coinvault` | `coinvault.dfy` | setup, slot filling, compaction, signing |
| `HdMultisig` | `hdmultisig.dfy` | argument splitting; the derived, sorted keys |
| `Compose` | `compose.dfy` | the send and prepare functions |
| `Inspect` | `inspect.dfy` | `inspect` |
| `MerkleLookup` | `merkle.dfy` | the lookup in `merkle_prove` |
| `SizeEstimate` | `estimate.dfy` | `estimate_tx_size` |

Modelling choices:

- Every collaborator becomes a function parameter, and the model says nothing about what it
  computes. This covers:
  - `deserialize_script` of the redeem script, `multisign` and `privtopub`, with the private
    key passed on to `multisign`;
  - `bip32_descend`, `mk_multisig_script` and `scriptaddr`;
  - `unspent`, `select` and `privtoaddr`;
  - `fetchtx`, `script_to_address` and `mk_merkle_proof`.
- The whole-transaction signing lemmas assume that `multisign` signs a form of the
  transaction in which every input script is replaced (`IgnoresScripts`). The real `multisign`
  signs such a signature form, but it is not part of this model.
- Transactions and input scripts are held deserialized. The model assumes that
  `serialize`/`deserialize` and `serialize_script`/`deserialize_script` round-trip.
- The model follows Python 2 semantics where the code depends on them:
  - `len(filter(...)) >= k` with `k` read from a script: an integer compares numerically,
    `None` is below every integer, and a string is above every integer.
  - `[None] * n` gives the empty list when `n` is negative.
  - Slices clamp.
  - `int()` ignores surrounding white space.
  - `len` of an integer raises `TypeError`.
- The code does none of the following, and neither does the model:
  - check that a slot is empty before writing a signature;
  - leave an input unchanged when its signer has already signed;
  - apply a dust threshold or compute change;
  - reject amounts that are not positive;
  - check the threshold `k` against the key count `n`.

  Leaving a complete input unchanged appears only as the corrected member of the first finding.

## Model

| member | source | states |
|---|---|---|
| `Coinvault.SetupCoinvault` | bitcoin/composite.py:73-78 | Setup succeeds exactly when the parsed redeem script has a numeric second-to-last element `N`. Every input then gets `N+1` empty slots (none when `N+1` is negative) followed by the redeem script. Outpoints, sequences, outputs, version, locktime and the input count are unchanged. A short script gives `IndexError`; a non-number gives `TypeError`. |
| `Coinvault.SetupIdempotent` | bitcoin/composite.py:73-78 | Setting a transaction up twice gives the same transaction as setting it up once. |
| `Coinvault.Fill` | bitcoin/composite.py:90-92 | Slot writing fails with `IndexError` exactly when some slot `i+1` with `pubs[i] == pub` is past the end of the script. Otherwise the signature is in exactly those slots, whether or not they were empty, and every other element is unchanged. |
| `Coinvault.Signatures` | bitcoin/composite.py:93-94 | `filter(lambda x: x, ..)` keeps only truthy elements and is no longer than its input. A list that is already all truthy is kept whole. `SignatureKept` and `SignatureOrigin` give the rest: exactly the truthy elements are kept, in order. |
| `Coinvault.SignaturesConcat` | bitcoin/composite.py:93-94 | Filtering (`Signatures`) a concatenation filters each part and concatenates the results. |
| `Coinvault.SignatureOrigin` | bitcoin/composite.py:93-94 | The `t`-th filtered element is the element of the input with exactly `t` truthy elements before it. Filtering invents nothing and reorders nothing. |
| `Coinvault.SignatureKept` | bitcoin/composite.py:93-94 | The converse of `SignatureOrigin`: every truthy element is kept. It is the kept element whose index is the number of truthy elements before it. |
| `Coinvault.CompactionShape` | bitcoin/composite.py:93-94 | For `Compact`, with a non-negative integer threshold `n`, the script is compacted exactly when at least `n` middle elements are truthy. The result has length `n+2`: an empty marker, the first `n` signatures, and the unchanged last element. Below the threshold the script is untouched. |
| `Coinvault.CompactionKeepsOrder` | bitcoin/composite.py:94 | Each kept signature `t` is a middle slot of the original script with exactly `t` signatures before it. The kept signatures are therefore in slot (key) order. |
| `Coinvault.SignInput` | bitcoin/composite.py:89-94 | One signer on one input: success exactly when the slots are in range and a compaction has a last element to keep. Below the threshold, the result is the written script. At or above it, the result is the compacted written script. |
| `Coinvault.KeptAreSignatures` | bitcoin/composite.py:94 | Filtering the kept prefix of a filtered list gives the prefix back. A compacted script therefore counts exactly the signatures it keeps. |
| `Coinvault.SigningKeepsLastWhenKeysFit` | bitcoin/composite.py:88-95 | When all key slots lie before the last element, signing cannot fail and keeps the redeem script last. The script either keeps its length or is complete. |
| `Coinvault.TwoSignersCommute` | bitcoin/composite.py:90-94 | Two different signers, neither of whom completes the input alone, reach the same script in either order. |
| `Coinvault.WriteAllIgnoresOrder` | bitcoin/composite.py:90-92 | The slot writes of signers with distinct keys give the same script in any order. |
| `Coinvault.SignAllCompactsOnce` | bitcoin/composite.py:88-95 | When the keys fit and no signer before the last completes the input, signing in turn (`SignAll`) equals writing every signature and compacting once at the end. |
| `Coinvault.SignAllKeepsLast` | bitcoin/composite.py:88-95 | When the keys fit and no signer before the last completes the input, a series of signers never fails and keeps the redeem script last. |
| `Coinvault.SigningOrderIrrelevant` | bitcoin/composite.py:88-95 | On one input, with each signer's signature given: distinct signers whose keys fit reach the same script whatever order they sign in, provided no signer before the last completes the input in either order. Signing cannot fail, and the last element (the redeem script) stays last. `SignInTurnOrderIrrelevant` lifts this to whole-transaction calls. |
| `Coinvault.SigningOrderIrrelevantAfterSetup` | bitcoin/composite.py:73-95 | The same, on one input with each signer's signature given, for an input freshly set up with `N` slots that hold all the keys: any two orders of the same distinct signers give the same script, ending in the redeem script. |
| `Coinvault.ReadParams` | bitcoin/composite.py:85-87 | The redeem script, `k` and the key list `oscript[1:-2]` are read from input 0's script only. Reading fails with `IndexError` when there is no input, the script is empty, or the parsed redeem script is empty. It fails with `TypeError` when the last element of input 0's script is not data. The contract names the exception in each case. |
| `Coinvault.SignCoinvault` | bitcoin/composite.py:82-96 | Signing the transaction succeeds exactly when input 0 yields parameters and every input's signing step succeeds. Each input's new script is input 0's parameters applied to its own script. Nothing but the input scripts changes. |
| `Coinvault.FirstSigningAfterSetup` | bitcoin/composite.py:73-96 | After setup with a redeem script whose keys fit in the `N` slots, the parameters read back are those of the redeem script. The first signature always succeeds, and the redeem script stays last in every input. |
| `Coinvault.FirstCoSigner` | bitcoin/composite.py:82-96 | One call of `sign_coinvault_tx(tx, priv)` on a transaction whose inputs all have room for the keys succeeds and changes only the input scripts. Each input gets the one-signer step for the key `privtopub(priv)`, with the signature `multisign(tx, j, redeem, priv)` over the transaction as passed in. |
| `Coinvault.SignInTurnPerInput` | bitcoin/composite.py:82-96 | Co-signers calling `sign_coinvault_tx` one after another, each on the previous result. Suppose input 0 carries the vault parameters, every input has room for all the keys (`|pubs| + 2` elements or more), the signing primitive ignores input scripts, and no co-signer before the last completes any input. Then every call succeeds. Only the scripts change, and each input ends as the series of one-signer steps with signatures over the original transaction leaves it. |
| `Coinvault.SignInTurnOrderIrrelevant` | bitcoin/composite.py:82-96 | Co-signers with distinct keys who each call `sign_coinvault_tx` once produce the same transaction in any order. The conditions are those of `SignInTurnPerInput`: input 0 carries the vault parameters, every input has room for all the keys, and the signing primitive ignores input scripts. In addition, no co-signer before the last completes any input, in either order. Every call succeeds, only the scripts change, each input matches the per-input series, and every input keeps its redeem script last. |
| `Coinvault.TwoOfThreeFirstSigner` | bitcoin/composite.py:88-95 | In a 2-of-3 vault, a first signature by A or by B fills only that signer's slot. |
| `Coinvault.TwoOfThreeSecondSigner` | bitcoin/composite.py:88-95 | In a 2-of-3 vault, the second of A and B completes the input as `[None, sig_A, sig_B, redeem]`, whichever of them signs first. |
| `Coinvault.LateSignerCorruptsCompletedInput` | bitcoin/composite.py:90-94 | As written, a signer after completion behaves as follows. C replaces the redeem script of a complete 2-of-3 input with its signature. D raises `IndexError` on a 2-of-4 input. A replaces a kept signature. |
| `Coinvault.SignInputGuarded` | bitcoin/composite.py:88-95 | Corrected step. A complete input stays complete. A vault-shaped input never fails and keeps its last element (the redeem script) last; here vault-shaped means non-empty with all key slots before the last element, or already complete. The result either keeps the input's length or is complete, so it is vault-shaped again. The as-written step loses these properties once an input is complete. |
| `Coinvault.GuardedSigningKeepsRedeem` | bitcoin/composite.py:88-95 | With the corrected step, any series of signers on a freshly set-up input never fails and keeps the redeem script last. |
| `Coinvault.GuardedCompleteIsFinal` | bitcoin/composite.py:88-95 | With the corrected step, a complete input stays exactly as it is whoever signs afterwards. |
| `HdMultisig.KeyCount` | bitcoin/composite.py:57-60 | The key loop succeeds exactly when the arguments have a point where the leading run of arguments longer than 40 ends at an argument with a length. It then returns that point. |
| `HdMultisig.SplitHdmArgs` | bitcoin/composite.py:54-62 | Three arguments are read as `(keys, req, path)`; this fails only when `keys` cannot be iterated. Otherwise the keys are the leading long arguments, in order. `req` is `int` of the next argument, and the path is `int` of each remaining argument, in order. |
| `HdMultisig.VariadicSplitSucceeds` | bitcoin/composite.py:57-62 | Conversely, if the key run ends at `b` and the threshold and every path index convert to integers, the variadic split succeeds with the first `b` arguments as keys. |
| `HdMultisig.VariadicSplitOfKeys` | bitcoin/composite.py:57-62 | Long keys followed by a short argument split into those keys, with threshold and path taken from the remaining arguments alone. |
| `HdMultisig.DeriveKeepsMultiset` | bitcoin/composite.py:63 | Deriving public keys from two arrangements of the same keys gives two arrangements of the same public keys. |
| `HdMultisig.HdmScript` | bitcoin/composite.py:63-64 | The script exists exactly when the split succeeds. It is the multisig script of an ordered arrangement of the derived public keys, with the threshold. |
| `HdMultisig.HdmAddr` | bitcoin/composite.py:68-69 | The address exists exactly when the script exists, and is the script's address. |
| `HdMultisig.ScriptIgnoresKeyOrder` | bitcoin/composite.py:63-69 | Two calls that settle on the same threshold and path, and the same keys in any order, give the same script and the same address. |
| `HdMultisig.ListFormIgnoresKeyOrder` | bitcoin/composite.py:54-69 | In the list form, permuting the key list changes neither the script nor the address. |
| `HdMultisig.VariadicFormIgnoresKeyOrder` | bitcoin/composite.py:56-69 | In the variadic form, permuting the leading key arguments changes neither the script nor the address. A failing call fails in every order. |
| `HdMultisig.OneKeyVariadicCallMisread` | bitcoin/composite.py:54-55 | As written, a variadic call of one 41-character key, threshold and one index is taken as the list form. The key is read as 41 one-character keys and the path as the bare index. |
| `HdMultisig.SplitHdmArgsIntended` | bitcoin/composite.py:54-62 | Corrected split: the list form only when the first argument is a list. Otherwise it succeeds exactly when there is a key run whose threshold and path convert. |
| `HdMultisig.IntendedSplitReadsVariadicCalls` | bitcoin/composite.py:54-62 | With the corrected split, every variadic call of long keys, a threshold string and integer indices is read back as exactly those keys, threshold and path, whatever its length. |
| `StringOrder.Sort` | bitcoin/composite.py:63 | `sorted` returns an ordered permutation of its argument. |
| `StringOrder.SortIgnoresOrder` | bitcoin/composite.py:63 | `sorted` of two arrangements of the same strings gives the same list. |
| `PyValues.ParseShowsInverse` | bitcoin/composite.py:33-44 | `int(str(n)) == n`. The decimal form of an amount contains no colon. |
| `PyValues.SplitJoinInverse` | bitcoin/composite.py:44 | `split` loses nothing: joining the pieces gives the string back, and no piece contains the separator. |
| `Compose.OutputValueNeedsColon` | bitcoin/composite.py:44 | For `OutputValue` (`int(a.split(":")[1])`): a request without a colon fails with `IndexError`. A request that parses contains a colon. |
| `Compose.OutputValueOfRequest` | bitcoin/composite.py:31-44 | A request built as `to + ":" + str(value)` reads back (`OutputValue`) as `value` when the address has no colon. |
| `Compose.OutputTotalOk` | bitcoin/composite.py:42-44 | For `OutputTotal`, the loop summing the requests: summing the requests succeeds exactly when every request parses. |
| `Compose.OutputTotalFirstError` | bitcoin/composite.py:42-44 | A failed sum reports the error of the first request that does not parse; every request before it parses. |
| `Compose.OutputTotalAppend` | bitcoin/composite.py:42-44 | The total of two batches of requests is the sum of their totals. |
| `Compose.ReadRequest` | bitcoin/composite.py:39-44 | The fee (last argument) is converted before any request is summed. No arguments gives `IndexError`. On success, the requests are the other arguments in order and the total is their sum. |
| `Compose.Assemble` | bitcoin/composite.py:46-49 | Selection is asked for the request total plus the fee. On success, `mksend` gets the selected inputs, the requests, the sender as change address and the fee, in that order. |
| `Compose.PrepareMultiTx` | bitcoin/composite.py:38-49 | `preparemultitx` fails with the request error when reading fails. Otherwise it succeeds exactly when selection succeeds for total plus fee. The target and `mksend` layout are as above. |
| `Compose.SendMultiTx` | bitcoin/composite.py:14-24 | As `preparemultitx`, with the private key's address as the source of the unspent outputs and as the change address. |
| `Compose.LayoutUnpacks` | bitcoin/composite.py:24 | The `mksend` layout loses nothing: the requests, change address and fee can be read back from it. |
| `Compose.PaymentRequestReadsBack` | bitcoin/composite.py:31-44 | A single payment `to:value` is read as exactly that one request, totalling `value`. A fee that does not convert gives its conversion error. |
| `Compose.PrepareTxTarget` | bitcoin/composite.py:31-49 | For a recipient address without a colon, `preparetx` (`PrepareTx`) succeeds exactly when selection succeeds for amount plus fee. `mksend` then gets the selected inputs, the one request, the sender and the fee. |
| `Compose.SendIsPrepareFromKeyAddress` | bitcoin/composite.py:9-34 | `send` (`Send`) is `preparetx` (`PrepareTx`) from the private key's address. |
| `Inspect.Resolve` | bitcoin/composite.py:105-107 | An input resolves exactly when its funding transaction is fetched and has an output at the index. It resolves to that output. |
| `Inspect.ResolveAll` | bitcoin/composite.py:104-107 | All inputs resolve exactly when each does; the outputs come back in input order. |
| `Inspect.ResolveAllKeepsFirstError` | bitcoin/composite.py:104-107 | The first failing input decides the error. |
| `Inspect.AddressTotalsContents` | bitcoin/composite.py:109-110 | The per-address map built by `AddressTotals` holds exactly the addresses some previous output pays to. Each address maps to the total of those outputs. |
| `Inspect.AddressTotalsSum` | bitcoin/composite.py:104-110 | The values of the per-address map (`AddressTotals`) add up to the input total. |
| `Inspect.AccumulateInputs` | bitcoin/composite.py:102-110 | The input loop fails exactly when resolution fails, with its error. Otherwise it returns the input total and the per-address map. |
| `Inspect.ListOutputs` | bitcoin/composite.py:111-116 | The output loop lists one (address, value) per output, in order, and returns the output total. |
| `Inspect.Inspect` | bitcoin/composite.py:100-121 | `inspect`: the fee is input total minus output total, unclamped. The map holds exactly the paying addresses with their totals and sums to the input total. Outputs are listed in order. Fails exactly when an input does not resolve. |
| `Inspect.InspectFixture` | bitcoin/composite.py:100-121 | Inputs of 500000 and 300000 and an output of 750000 give a fee of 50000. When both inputs pay one address, that address is credited 800000. |
| `SizeEstimate.EstimateMarginalWeights` | bitcoin/composite.py:160 | For `EstimateTxSize`, the formula as written: an extra input adds 34 bytes, an extra output adds 148, and an empty transaction is 10 bytes. |
| `SizeEstimate.WeightsSwapped` | bitcoin/composite.py:160 | The formula as written and the usual one agree exactly when inputs and outputs are equally many. One input and two outputs give 340 against 226. |
| `SizeEstimate.IntendedMarginalWeights` | bitcoin/composite.py:160 | With the weights the other way round, an input adds 148 bytes and an output 34. |
| `MerkleLookup.IndexOf` | bitcoin/composite.py:128 | `hashes.index(h)` succeeds exactly when `h` is present; a missing hash gives `ValueError`. The result is the first position holding `h`. |
| `MerkleLookup.IndexOfUnique` | bitcoin/composite.py:128 | Any position holding `h` with no earlier copy is the one found. |
| `MerkleLookup.MerkleProve` | bitcoin/composite.py:124-129 | The proof builder gets the header, the hashes and the first position of the transaction. A transaction missing from the block gives `ValueError`. |

## Left out

- Network and chain I/O are not modelled. `unspent`, `pushtx`, `fetchtx`, `get_block_height`,
  `get_block_header_data`, `get_txs_in_block` and `get_fee_estimate` become parameters or
  given data: `fetchTx`, `unspent`, and a block's header and hashes.
- Cryptography and codecs are not modelled: key derivation, signing, script building,
  addresses and the (de)serialisation formats. Their byte formats lie outside this module.
  Each is an uninterpreted function parameter.
- `select`, `mksend`, `signall` and `pushtx` have internals that are not part of this model.
  Selection is a parameter that may decline (`SelectFailed`). `sendmultitx` is modelled up to
  the `mksend` argument list; the signing and broadcast that follow are left out.
- Exceptions raised inside collaborators are not modelled, apart from failed selection and
  failed fetches.
- `tx_size` and `realtime_tx_fee` are left out. Their kilobyte size and fee are float
  arithmetic over a fee API, and the byte size is only the length of the external serialiser's
  output.
- `estimate_tx_size` reads an undefined `txobj` and so always raises as written. Its
  always-true `'ins'`/`'outs'` tests are not modelled either. Only the return formula is
  modelled, over a deserialized transaction.
- Keyword arguments (`**kwargs`, such as the network name) are not modelled, because they
  only reach the network collaborators.
- `send` and `preparetx` are modelled with an integer `value`. `str(value)` of another type
  is not modelled. A caller who omits the fee passes `Int(DefaultFee)`.
- Python 2's `int()` of a string with a trailing `L`, and of non-decimal forms, is not
  modelled. Such strings give `ValueError` here.
- SignInTurnOrderIrrelevant: holds only under `IgnoresScripts`. It says nothing about a
  signing primitive whose signatures depend on what other co-signers already wrote.
- PrepareTxTarget: stated for an integer fee and a recipient address without a colon. An
  address with a colon makes `int(a.split(":")[1])` read the wrong piece. That case is
  covered only by PrepareMultiTx's contract, which returns the request's error. A string fee is covered by
  PaymentRequestReadsBack together with PrepareMultiTx's contract.

## Findings

| source | as written | input that shows it | evidently intended | confidence | as-written member | corrected member |
|---|---|---|---|---|---|---|
| bitcoin/composite.py:90-94 | After an input is compacted, a later signer still writes to its original slot `i+1`, which now points into the shorter script. | Take a complete 2-of-3 input `[None, sig_A, sig_B, redeem]`. When C signs, the redeem script becomes `sig_C`. In a 2-of-4 vault, D gets `IndexError`. In a 1-of-3 vault, A replaces `sig_C`. | A complete input is left as it is, so that signers who cannot see the current state can retry safely. | medium, not executed | `Coinvault.LateSignerCorruptsCompletedInput` | `Coinvault.GuardedSigningKeepsRedeem` (about `Coinvault.SignInputGuarded`) |
| bitcoin/composite.py:160 | `nouts * 148 + 34 * nins + 10` | One input and two outputs give 340 bytes. | Inputs weigh about 148 bytes and outputs about 34, so the same payment is 226. | medium, not executed | `SizeEstimate.WeightsSwapped` | `SizeEstimate.IntendedMarginalWeights` (about `SizeEstimate.EstimateTxSizeIntended`) |
| bitcoin/composite.py:54 | Any call with exactly three arguments is taken as `(keys, req, path)`. | The variadic call `bip32_hdm_script(xpub, "1", 0)` with one 41-character key is read as 41 one-character keys and path `0`. | The list form applies only when the first argument is a list of keys. | medium, not executed | `HdMultisig.OneKeyVariadicCallMisread` | `HdMultisig.IntendedSplitReadsVariadicCalls` (about `HdMultisig.SplitHdmArgsIntended`) |

=== FILE: coinvault.dfy ===
/** The coinvault partial-signature state machine: `setup_coinvault_tx`
    installs empty signature slots in front of the redeem script of every
    input, and `sign_coinvault_tx` lets one signer at a time fill the slots of
    its key, compacting an input's script once it holds `k` signatures.

    A vault input script is a sequence of script items: position 0 is the
    OP_0 dummy CHECKMULTISIG consumes, positions 1..n are the signature slots
    in the order of the redeem script's keys, and the last element is the
    redeem script itself. */
module Coinvault {
  import opened Results
  import opened PyValues
  import opened Transactions

  // ---------------------------------------------------------------------------
  // Setup

  /** `[None] * count`: a count below one gives the empty list. */
  function Blanks(count: int): (r: seq<Item>)
    ensures |r| == (if count > 0 then count else 0)
    ensures forall q :: 0 <= q < |r| ==> r[q] == Nil
  {
    if count <= 0 then [] else seq(count, _ => Nil)
  }

  /** setup_coinvault_tx: `N` is the second-to-last element of the parsed
      redeem script (the key count of a standard multisig script); every input
      gets `N+1` empty slots followed by the redeem script. */
  function SetupCoinvault(tx: Tx, script: string, parse: string -> seq<Item>): (r: Result<Tx>)
    ensures r.Ok? <==> |parse(script)| >= 2 && parse(script)[|parse(script)| - 2].Num?
    ensures r.Err? ==> r.error == (if |parse(script)| < 2 then IndexError else TypeError)
    ensures r.Ok? ==>
              var n := parse(script)[|parse(script)| - 2].n;
              && r.value.version == tx.version
              && r.value.outs == tx.outs
              && r.value.locktime == tx.locktime
              && |r.value.ins| == |tx.ins|
              && forall j :: 0 <= j < |tx.ins| ==>
                   && r.value.ins[j].outpoint == tx.ins[j].outpoint
                   && r.value.ins[j].sequence == tx.ins[j].sequence
                   && |r.value.ins[j].script| == (if n >= -1 then n + 2 else 1)
                   && r.value.ins[j].script[|r.value.ins[j].script| - 1] == Data(script)
                   && forall q :: 0 <= q < |r.value.ins[j].script| - 1 ==> r.value.ins[j].script[q] == Nil
  {
    var o := parse(script);
    if |o| < 2 then Err(IndexError)
    else
      var count := o[|o| - 2];
      if !count.Num? then Err(TypeError)
      else
        var slots := Blanks(count.n + 1) + [Data(script)];
        Ok(tx.(ins := seq(|tx.ins|, j requires 0 <= j < |tx.ins| => tx.ins[j].(script := slots))))
  }

  /** Setting a transaction up twice is the same as setting it up once: the
      slots are overwritten, never accumulated. */
  lemma SetupIdempotent(tx: Tx, script: string, parse: string -> seq<Item>)
    requires SetupCoinvault(tx, script, parse).Ok?
    ensures SetupCoinvault(SetupCoinvault(tx, script, parse).value, script, parse)
            == SetupCoinvault(tx, script, parse)
  {
    var t1 := SetupCoinvault(tx, script, parse).value;
    var t2 := SetupCoinvault(t1, script, parse).value;
    assert t2.ins == t1.ins;
  }

  // ---------------------------------------------------------------------------
  // Writing one signer's signature

  /** Position `q` receives the signer's signature: the signer's key sits at
      `pubs[q-1]` (`scr[i+1] = ...` for `pubs[i] == pub`). */
  predicate Writes(pubs: seq<Item>, pub: string, q: int) {
    1 <= q <= |pubs| && pubs[q - 1] == Data(pub)
  }

  /** Every position the signer writes lies inside the script. */
  predicate InRange(scr: seq<Item>, pubs: seq<Item>, pub: string) {
    forall q :: 1 <= q <= |pubs| && Writes(pubs, pub, q) ==> q < |scr|
  }

  /** The script after the signer's writes, position by position. */
  function Written(scr: seq<Item>, pubs: seq<Item>, pub: string, sig: Item): seq<Item> {
    seq(|scr|, q requires 0 <= q < |scr| => if Writes(pubs, pub, q) then sig else scr[q])
  }

  /** The slot-writing loop from key index `i` on, one key at a time; a match
      whose slot lies past the end of the script raises. */
  function FillFrom(scr: seq<Item>, pubs: seq<Item>, pub: string, sig: Item, i: nat): (r: Result<seq<Item>>)
    requires i <= |pubs|
    decreases |pubs| - i
    ensures r.Ok? <==> forall q :: i + 1 <= q && Writes(pubs, pub, q) ==> q < |scr|
    ensures r.Err? ==> r.error == IndexError
    ensures r.Ok? ==> |r.value| == |scr|
    ensures r.Ok? ==> forall q :: 0 <= q < |scr| ==>
                        r.value[q] == (if i + 1 <= q && Writes(pubs, pub, q) then sig else scr[q])
  {
    if i == |pubs| then Ok(scr)
    else if pubs[i] == Data(pub) then
      if i + 1 < |scr| then FillFrom(scr[i + 1 := sig], pubs, pub, sig, i + 1)
      else assert Writes(pubs, pub, i + 1); Err(IndexError)
    else
      FillFrom(scr, pubs, pub, sig, i + 1)
  }

  /** The whole slot-writing loop: it fails exactly when a matching slot is
      out of range, and otherwise writes the signature into exactly the
      positions `i+1` with `pubs[i] == pub`, whether or not they were empty,
      leaving every other element as it was. */
  function Fill(scr: seq<Item>, pubs: seq<Item>, pub: string, sig: Item): (r: Result<seq<Item>>)
    ensures r.Ok? <==> InRange(scr, pubs, pub)
    ensures r.Err? ==> r.error == IndexError
    ensures r.Ok? ==> r.value == Written(scr, pubs, pub, sig)
  {
    FillFrom(scr, pubs, pub, sig, 0)
  }

  // ---------------------------------------------------------------------------
  // Compaction

  /** `filter(lambda x: x, xs)`: the truthy elements of `xs`, in order. */
  function Signatures(xs: seq<Item>): (r: seq<Item>)
    ensures |r| <= |xs|
    ensures forall t :: 0 <= t < |r| ==> Truthy(r[t])
    ensures (forall p :: 0 <= p < |xs| ==> Truthy(xs[p])) ==> r == xs
  {
    if |xs| == 0 then []
    else (if Truthy(xs[0]) then [xs[0]] else []) + Signatures(xs[1..])
  }

  /** The `t`-th kept element is the element of `xs` that has exactly `t`
      truthy elements before it: filtering neither invents nor reorders. */
  lemma {:induction false} SignatureOrigin(xs: seq<Item>, t: nat) returns (p: nat)
    requires t < |Signatures(xs)|
    ensures p < |xs| && Truthy(xs[p]) && |Signatures(xs[..p])| == t
    ensures Signatures(xs)[t] == xs[p]
    decreases |xs|
  {
    var rest := Signatures(xs[1..]);
    if Truthy(xs[0]) && t == 0 {
      assert xs[..0] == [];
      assert Signatures(xs)[0] == xs[0];
      p := 0;
    } else {
      var t' := if Truthy(xs[0]) then t - 1 else t;
      assert Signatures(xs)[t] == rest[t'];
      var p' := SignatureOrigin(xs[1..], t');
      p := p' + 1;
      assert xs[..p][1..] == xs[1..][..p'];
      assert xs[..p][0] == xs[0];
      assert |Signatures(xs[..p])| == t;
      assert xs[p] == xs[1..][p'];
    }
  }

  /** Filtering a concatenation filters each part. */
  lemma {:induction false} SignaturesConcat(a: seq<Item>, b: seq<Item>)
    ensures Signatures(a + b) == Signatures(a) + Signatures(b)
    decreases |a|
  {
    if |a| == 0 {
      assert a + b == b;
    } else {
      assert (a + b)[0] == a[0];
      assert (a + b)[1..] == a[1..] + b;
      SignaturesConcat(a[1..], b);
    }
  }

  /** The converse of SignatureOrigin: every truthy element is kept, as the
      kept element whose index is the number of truthy elements before it. */
  lemma SignatureKept(xs: seq<Item>, p: nat)
    requires p < |xs| && Truthy(xs[p])
    ensures |Signatures(xs[..p])| < |Signatures(xs)|
    ensures Signatures(xs)[|Signatures(xs[..p])|] == xs[p]
  {
    var tail := [xs[p]] + xs[p + 1..];
    assert xs == xs[..p] + tail;
    SignaturesConcat(xs[..p], tail);
    assert tail[0] == xs[p] && tail[1..] == xs[p + 1..];
    assert Signatures(tail) == [xs[p]] + Signatures(xs[p + 1..]);
  }

  /** Python 2 `count >= k` for the item `k` read from the redeem script: an
      integer compares numerically, None is below every integer and a string
      above every integer. */
  predicate Reached(count: nat, k: Item) {
    match k
    case Num(m) => count >= m
    case Nil => true
    case Data(_) => false
  }

  /** `sigs[:k]` for a threshold that has been reached: an integer bound is a
      Python slice bound, None keeps everything. */
  function Keep(sigs: seq<Item>, k: Item): seq<Item> {
    match k
    case Num(m) => Slice(sigs, 0, m)
    case _ => sigs
  }

  /** Lines 93-94: once the middle of the script holds at least `k` truthy
      elements it becomes `[None] + first-k-signatures + [last element]`. */
  function Compact(scr: seq<Item>, k: Item): Result<seq<Item>> {
    var sigs := Signatures(Inner(scr));
    if Reached(|sigs|, k) then
      if |scr| == 0 then Err(IndexError) else Ok([Nil] + Keep(sigs, k) + [scr[|scr| - 1]])
    else
      Ok(scr)
  }

  /** For an integer threshold `n`, compaction happens exactly when at least
      `n` middle elements are truthy; it then leaves `n+2` elements: an empty
      marker, the first `n` signatures of the middle in their original order,
      and the untouched last element. Otherwise the script is unchanged. */
  lemma CompactionShape(scr: seq<Item>, n: nat)
    requires |scr| > 0
    ensures var sigs := Signatures(Inner(scr));
            && (|sigs| < n ==> Compact(scr, Num(n)) == Ok(scr))
            && (|sigs| >= n ==>
                  && Compact(scr, Num(n)).Ok?
                  && |Compact(scr, Num(n)).value| == n + 2
                  && Compact(scr, Num(n)).value[0] == Nil
                  && Compact(scr, Num(n)).value[n + 1] == scr[|scr| - 1]
                  && Compact(scr, Num(n)).value[1..n + 1] == sigs[..n])
  {
    var sigs := Signatures(Inner(scr));
    if |sigs| >= n {
      assert Keep(sigs, Num(n)) == sigs[..n];
      var r := [Nil] + sigs[..n] + [scr[|scr| - 1]];
      assert Compact(scr, Num(n)) == Ok(r);
      assert r[1..n + 1] == sigs[..n];
    }
  }

  /** The `t`-th truthy middle element of `scr` is the middle element with
      exactly `t` truthy elements before it. */
  predicate KeptFrom(scr: seq<Item>, t: nat)
    requires t < |Signatures(Inner(scr))|
  {
    exists p :: && 1 <= p < |scr| - 1 && Truthy(scr[p])
                && |Signatures(scr[1..p])| == t
                && Signatures(Inner(scr))[t] == scr[p]
  }

  lemma KeptFromOne(scr: seq<Item>, t: nat)
    requires t < |Signatures(Inner(scr))|
    ensures KeptFrom(scr, t)
  {
    var mid := Inner(scr);
    var p' := SignatureOrigin(mid, t);
    assert |scr| >= 2 && mid == scr[1..|scr| - 1];
    var p := p' + 1;
    assert mid[..p'] == scr[1..p];
    assert mid[p'] == scr[p];
    assert 1 <= p < |scr| - 1 && Truthy(scr[p]) && |Signatures(scr[1..p])| == t
           && Signatures(Inner(scr))[t] == scr[p];
  }

  /** The signatures compaction keeps are the first `n` truthy middle
      elements in their original order: the `t`-th kept one is the middle
      element with exactly `t` truthy elements before it. */
  lemma CompactionKeepsOrder(scr: seq<Item>, n: nat)
    requires |Signatures(Inner(scr))| >= n
    ensures forall t: nat :: t < n ==> KeptFrom(scr, t)
  {
    forall t: nat | t < n
      ensures KeptFrom(scr, t)
    {
      KeptFromOne(scr, t);
    }
  }

  // ---------------------------------------------------------------------------
  // One signer on one input

  /** One iteration of the per-input loop of sign_coinvault_tx (lines 89-94):
      write the signature into the signer's slots, then compact if the
      threshold is reached. Fails exactly when a slot is out of range or when
      compaction would read the last element of an empty script. */
  function SignInput(scr: seq<Item>, pubs: seq<Item>, pub: string, sig: Item, k: Item): (r: Result<seq<Item>>)
    ensures var w := Written(scr, pubs, pub, sig);
            var count := |Signatures(Inner(w))|;
            && (r.Ok? <==> InRange(scr, pubs, pub) && (Reached(count, k) ==> |scr| > 0))
            && (r.Ok? && !Reached(count, k) ==> r.value == w)
            && (r.Ok? && Reached(count, k) ==>
                  r.value == [Nil] + Keep(Signatures(Inner(w)), k) + [w[|w| - 1]])
  {
    var w :- Fill(scr, pubs, pub, sig);
    Compact(w, k)
  }

  /** `filter(..)` of an already filtered list keeps all of it. */
  lemma KeptAreSignatures(sigs: seq<Item>, k: Item)
    requires forall t :: 0 <= t < |sigs| ==> Truthy(sigs[t])
    ensures Signatures(Keep(sigs, k)) == Keep(sigs, k)
  {
    var kept := Keep(sigs, k);
    assert forall t :: 0 <= t < |kept| ==> kept[t] in sigs;
  }

  /** When every key's slot lies before the last element, a signing step
      cannot fail and never touches the last element (the redeem script);
      the script either keeps its length or is compacted to a complete one. */
  lemma SigningKeepsLastWhenKeysFit(scr: seq<Item>, pubs: seq<Item>, pub: string, sig: Item, k: Item)
    requires |pubs| + 2 <= |scr|
    ensures var r := SignInput(scr, pubs, pub, sig, k);
            && r.Ok?
            && |r.value| >= 1
            && r.value[|r.value| - 1] == scr[|scr| - 1]
            && (|r.value| == |scr| || Reached(|Signatures(Inner(r.value))|, k))
  {
    var w := Written(scr, pubs, pub, sig);
    assert w[|w| - 1] == scr[|scr| - 1];
    var sigs := Signatures(Inner(w));
    var r := SignInput(scr, pubs, pub, sig, k);
    if Reached(|sigs|, k) {
      var kept := Keep(sigs, k);
      assert r.value == [Nil] + kept + [w[|w| - 1]];
      assert Inner(r.value) == kept;
      KeptAreSignatures(sigs, k);
      match k {
        case Num(m) =>
          if m >= 0 {
            assert |kept| == m;
          }
        case Nil =>
        case Data(_) =>
      }
    }
  }

  /** Two signers with different keys, neither of whom completes the input on
      their own, reach the same script whichever of them signs first. */
  lemma TwoSignersCommute(scr: seq<Item>, pubs: seq<Item>, a: string, sa: Item, b: string, sb: Item, k: Item)
    requires a != b
    requires |pubs| + 2 <= |scr|
    requires !Reached(|Signatures(Inner(Written(scr, pubs, a, sa)))|, k)
    requires !Reached(|Signatures(Inner(Written(scr, pubs, b, sb)))|, k)
    ensures SignInput(scr, pubs, a, sa, k).Ok? && SignInput(scr, pubs, b, sb, k).Ok?
    ensures SignInput(SignInput(scr, pubs, a, sa, k).value, pubs, b, sb, k)
            == SignInput(SignInput(scr, pubs, b, sb, k).value, pubs, a, sa, k)
  {
    var wa := Written(scr, pubs, a, sa);
    var wb := Written(scr, pubs, b, sb);
    assert SignInput(scr, pubs, a, sa, k) == Ok(wa);
    assert SignInput(scr, pubs, b, sb, k) == Ok(wb);
    assert Written(wa, pubs, b, sb) == Written(wb, pubs, a, sa);
  }

  // ---------------------------------------------------------------------------
  // Several signers, in any order

  /** A signer: public key and the signature it contributes to this input. */
  datatype Signer = Signer(pub: string, sig: Item)

  /** No two signers share a public key. */
  predicate DistinctSigners(ss: seq<Signer>) {
    forall i, j :: 0 <= i < j < |ss| ==> ss[i].pub != ss[j].pub
  }

  /** The as-written step applied for a series of signers, in call order;
      the first failing step aborts. */
  function SignAll(scr: seq<Item>, pubs: seq<Item>, signers: seq<Signer>, k: Item): Result<seq<Item>>
    decreases |signers|
  {
    if |signers| == 0 then Ok(scr)
    else
      var s :- SignInput(scr, pubs, signers[0].pub, signers[0].sig, k);
      SignAll(s, pubs, signers[1..], k)
  }

  /** The slot writes of a series of signers, without any compaction. When
      the keys fit, the last element is never written. */
  function WriteAll(scr: seq<Item>, pubs: seq<Item>, signers: seq<Signer>): (r: seq<Item>)
    decreases |signers|
    ensures |r| == |scr|
    ensures |pubs| + 2 <= |scr| ==> r[|r| - 1] == scr[|scr| - 1]
  {
    if |signers| == 0 then scr
    else WriteAll(Written(scr, pubs, signers[0].pub, signers[0].sig), pubs, signers[1..])
  }

  /** No signer before the last brings the input to the threshold. */
  predicate NoEarlyCompletion(scr: seq<Item>, pubs: seq<Item>, signers: seq<Signer>, k: Item) {
    forall i {:trigger WriteAll(scr, pubs, signers[..i])} :: 1 <= i < |signers| ==> !Reached(|Signatures(Inner(WriteAll(scr, pubs, signers[..i])))|, k)
  }

  /** Signers with different keys write disjoint slots. */
  lemma WrittenCommute(s: seq<Item>, pubs: seq<Item>, a: Signer, b: Signer)
    requires a.pub != b.pub
    ensures Written(Written(s, pubs, a.pub, a.sig), pubs, b.pub, b.sig)
            == Written(Written(s, pubs, b.pub, b.sig), pubs, a.pub, a.sig)
  {
  }

  /** A signer whose key no earlier signer shares may as well write first. */
  lemma {:induction false} WriteAllHoist(scr: seq<Item>, pubs: seq<Item>, a: seq<Signer>, x: Signer, b: seq<Signer>)
    requires forall i :: 0 <= i < |a| ==> a[i].pub != x.pub
    ensures WriteAll(scr, pubs, a + [x] + b) == WriteAll(Written(scr, pubs, x.pub, x.sig), pubs, a + b)
    decreases |a|
  {
    if |a| == 0 {
      assert a + [x] + b == [x] + b;
      assert ([x] + b)[1..] == b;
      assert a + b == b;
    } else {
      var s1 := Written(scr, pubs, a[0].pub, a[0].sig);
      assert (a + [x] + b)[0] == a[0];
      assert (a + [x] + b)[1..] == a[1..] + [x] + b;
      WriteAllHoist(s1, pubs, a[1..], x, b);
      WrittenCommute(scr, pubs, a[0], x);
      assert (a + b)[0] == a[0];
      assert (a + b)[1..] == a[1..] + b;
    }
  }

  /** Taking one signer out of a list of distinct signers leaves distinct
      signers, none of them sharing its key. */
  lemma {:induction false} RemoveSigner(ss: seq<Signer>, j: int)
    requires DistinctSigners(ss) && 0 <= j < |ss|
    ensures ss == ss[..j] + [ss[j]] + ss[j + 1..]
    ensures forall i :: 0 <= i < j ==> ss[..j][i].pub != ss[j].pub
    ensures DistinctSigners(ss[..j] + ss[j + 1..])
  {
    var ab := ss[..j] + ss[j + 1..];
    assert ss == ss[..j] + [ss[j]] + ss[j + 1..];
    forall i, i' | 0 <= i < i' < |ab|
      ensures ab[i].pub != ab[i'].pub
    {
      var m := if i < j then i else i + 1;
      var m' := if i' < j then i' else i' + 1;
      assert ab[i] == ss[m] && ab[i'] == ss[m'];
    }
  }

  /** The first signer of one arrangement sits somewhere in the other, and
      the remaining signers of both are again arrangements of each other. */
  lemma {:induction false} MatchFirst<T>(ss1: seq<T>, ss2: seq<T>) returns (j: int)
    requires multiset(ss1) == multiset(ss2) && |ss1| > 0
    ensures 0 <= j < |ss2| && ss2[j] == ss1[0]
    ensures multiset(ss1[1..]) == multiset(ss2[..j] + ss2[j + 1..])
  {
    var x := ss1[0];
    assert x in multiset(ss2);
    j :| 0 <= j < |ss2| && ss2[j] == x;
    assert ss1 == [x] + ss1[1..];
    assert multiset(ss1[1..]) == multiset(ss1) - multiset{x};
    var rest := ss2[..j] + ss2[j + 1..];
    assert ss2 == ss2[..j] + [x] + ss2[j + 1..];
    assert multiset(ss2) == multiset(ss2[..j]) + multiset{x} + multiset(ss2[j + 1..]);
    assert multiset(rest) == multiset(ss2) - multiset{x};
  }

  /** The writes of distinct signers do not depend on their order. */
  lemma {:induction false} WriteAllIgnoresOrder(scr: seq<Item>, pubs: seq<Item>, ss1: seq<Signer>, ss2: seq<Signer>)
    requires multiset(ss1) == multiset(ss2)
    requires DistinctSigners(ss2)
    ensures WriteAll(scr, pubs, ss1) == WriteAll(scr, pubs, ss2)
    decreases |ss1|
  {
    if |ss1| == 0 {
      assert |ss2| == |multiset(ss2)| == 0;
    } else {
      var x := ss1[0];
      var j := MatchFirst(ss1, ss2);
      RemoveSigner(ss2, j);
      WriteAllHoist(scr, pubs, ss2[..j], x, ss2[j + 1..]);
      WriteAllIgnoresOrder(Written(scr, pubs, x.pub, x.sig), pubs, ss1[1..], ss2[..j] + ss2[j + 1..]);
    }
  }

  /** When the keys fit and nobody before the last signer completes the
      input, signing in turn is writing every signature and compacting once
      at the end. */
  lemma {:induction false} SignAllCompactsOnce(scr: seq<Item>, pubs: seq<Item>, signers: seq<Signer>, k: Item)
    requires |pubs| + 2 <= |scr|
    requires |signers| > 0
    requires NoEarlyCompletion(scr, pubs, signers, k)
    ensures SignAll(scr, pubs, signers, k) == Compact(WriteAll(scr, pubs, signers), k)
    decreases |signers|
  {
    var g := signers[0];
    var w := Written(scr, pubs, g.pub, g.sig);
    assert InRange(scr, pubs, g.pub);
    assert Fill(scr, pubs, g.pub, g.sig) == Ok(w);
    var rest := signers[1..];
    assert WriteAll(scr, pubs, signers) == WriteAll(w, pubs, rest);
    if |signers| > 1 {
      assert signers[..1] == [g];
      assert [g][1..] == [];
      assert WriteAll(scr, pubs, [g]) == w;
      assert SignInput(scr, pubs, g.pub, g.sig, k) == Ok(w);
      forall i | 1 <= i < |rest|
        ensures !Reached(|Signatures(Inner(WriteAll(w, pubs, rest[..i])))|, k)
      {
        assert signers[..i + 1][0] == g;
        assert signers[..i + 1][1..] == rest[..i];
        assert WriteAll(scr, pubs, signers[..i + 1]) == WriteAll(w, pubs, rest[..i]);
      }
      SignAllCompactsOnce(w, pubs, rest, k);
    }
  }

  /** Compaction of a non-empty script succeeds and keeps its last element. */
  lemma CompactKeepsLast(w: seq<Item>, k: Item) returns (c: seq<Item>)
    requires |w| > 0
    ensures Compact(w, k) == Ok(c)
    ensures |c| >= 1 && c[|c| - 1] == w[|w| - 1]
  {
    c := Compact(w, k).value;
  }

  /** `after` ends in the last element of `before`, the redeem script. */
  predicate RedeemKept(before: seq<Item>, after: seq<Item>) {
    |before| >= 1 && |after| >= 1 && after[|after| - 1] == before[|before| - 1]
  }

  /** The script a series of signers leaves, under the same conditions. */
  lemma {:induction false} SignAllLast(scr: seq<Item>, pubs: seq<Item>, signers: seq<Signer>, k: Item)
    returns (s: seq<Item>)
    requires |pubs| + 2 <= |scr|
    requires |signers| > 0
    requires NoEarlyCompletion(scr, pubs, signers, k)
    ensures SignAll(scr, pubs, signers, k) == Ok(s)
    ensures RedeemKept(scr, s)
  {
    SignAllCompactsOnce(scr, pubs, signers, k);
    var w := WriteAll(scr, pubs, signers);
    var last := w[|w| - 1];
    assert last == scr[|scr| - 1];
    s := CompactKeepsLast(w, k);
    assert s[|s| - 1] == last;
  }

  /** Under the same conditions one order of signers never fails and keeps
      the last element last. */
  lemma {:induction false} SignAllKeepsLast(scr: seq<Item>, pubs: seq<Item>, signers: seq<Signer>, k: Item)
    requires |pubs| + 2 <= |scr|
    requires |signers| > 0
    requires NoEarlyCompletion(scr, pubs, signers, k)
    ensures SignAll(scr, pubs, signers, k).Ok?
    ensures var s := SignAll(scr, pubs, signers, k).value; |s| >= 1 && s[|s| - 1] == scr[|scr| - 1]
  {
    var s := SignAllLast(scr, pubs, signers, k);
  }

  /** Distinct signers whose keys fit reach the same script whatever order
      they sign in, as long as no one before the last completes the input;
      the redeem script stays last. */
  lemma {:induction false} SigningOrderIrrelevant(scr: seq<Item>, pubs: seq<Item>, ss1: seq<Signer>, ss2: seq<Signer>, k: Item)
    requires |pubs| + 2 <= |scr|
    requires |ss1| > 0
    requires multiset(ss1) == multiset(ss2)
    requires DistinctSigners(ss1)
    requires NoEarlyCompletion(scr, pubs, ss1, k) && NoEarlyCompletion(scr, pubs, ss2, k)
    ensures SignAll(scr, pubs, ss1, k).Ok?
    ensures SignAll(scr, pubs, ss1, k) == SignAll(scr, pubs, ss2, k)
    ensures var s := SignAll(scr, pubs, ss1, k).value; |s| >= 1 && s[|s| - 1] == scr[|scr| - 1]
  {
    assert |ss2| == |multiset(ss2)| == |multiset(ss1)| == |ss1|;
    SignAllCompactsOnce(scr, pubs, ss1, k);
    SignAllCompactsOnce(scr, pubs, ss2, k);
    WriteAllIgnoresOrder(scr, pubs, ss2, ss1);
    SignAllKeepsLast(scr, pubs, ss1, k);
  }

  /** The same on a freshly set-up input whose `N` slots hold all the keys. */
  lemma SigningOrderIrrelevantAfterSetup(n: int, redeem: string, pubs: seq<Item>, ss1: seq<Signer>,
                                         ss2: seq<Signer>, k: Item)
    requires |pubs| <= n
    requires |ss1| > 0
    requires multiset(ss1) == multiset(ss2)
    requires DistinctSigners(ss1)
    requires NoEarlyCompletion(Blanks(n + 1) + [Data(redeem)], pubs, ss1, k)
    requires NoEarlyCompletion(Blanks(n + 1) + [Data(redeem)], pubs, ss2, k)
    ensures var slots := Blanks(n + 1) + [Data(redeem)];
            && SignAll(slots, pubs, ss1, k).Ok?
            && SignAll(slots, pubs, ss1, k) == SignAll(slots, pubs, ss2, k)
            && var s := SignAll(slots, pubs, ss1, k).value; |s| >= 1 && s[|s| - 1] == Data(redeem)
  {
    SigningOrderIrrelevant(Blanks(n + 1) + [Data(redeem)], pubs, ss1, ss2, k);
  }

  // ---------------------------------------------------------------------------
  // The whole transaction

  /** What sign_coinvault_tx reads from input 0's script (lines 85-87): the
      redeem script (last element), the threshold `k` (its first element) and
      the keys `oscript[1:-2]`. */
  datatype VaultParams = VaultParams(redeem: string, k: Item, pubs: seq<Item>)

  function ReadParams(tx: Tx, parse: string -> seq<Item>): (r: Result<VaultParams>)
    ensures r.Ok? <==> && |tx.ins| > 0
                       && |tx.ins[0].script| > 0
                       && tx.ins[0].script[|tx.ins[0].script| - 1].Data?
                       && |parse(tx.ins[0].script[|tx.ins[0].script| - 1].s)| > 0
    ensures r.Ok? ==> && tx.ins[0].script[|tx.ins[0].script| - 1] == Data(r.value.redeem)
                      && r.value.k == parse(r.value.redeem)[0]
                      && r.value.pubs == Slice(parse(r.value.redeem), 1, -2)
    ensures r.Err? ==> r.error == (if && |tx.ins| > 0
                                      && |tx.ins[0].script| > 0
                                      && !tx.ins[0].script[|tx.ins[0].script| - 1].Data?
                                   then TypeError else IndexError)
  {
    if |tx.ins| == 0 then Err(IndexError)
    else
      var sub := tx.ins[0].script;
      if |sub| == 0 then Err(IndexError)
      else
        var last := sub[|sub| - 1];
        if !last.Data? then Err(TypeError)
        else
          var o := parse(last.s);
          if |o| == 0 then Err(IndexError) else Ok(VaultParams(last.s, o[0], Slice(o, 1, -2)))
  }

  /** The new script of input `j`: input 0's parameters applied to input `j`'s
      script, with the signature `multisign(tx, j, redeem)` computed over the
      transaction as it was passed in. */
  function SignedScript(tx: Tx, j: nat, p: VaultParams, pub: string,
                        multisign: (Tx, nat, string) -> string): Result<seq<Item>>
    requires j < |tx.ins|
  {
    SignInput(tx.ins[j].script, p.pubs, pub, Data(multisign(tx, j, p.redeem)), p.k)
  }

  /** The loop over the inputs from index `j` on: input `i` gets the script
      `scripts[i]`, and the first input whose signing fails aborts the call. */
  function Rescript(ins: seq<TxIn>, scripts: seq<Result<seq<Item>>>, j: nat): (r: Result<seq<TxIn>>)
    requires |scripts| == |ins| && j <= |ins|
    decreases |ins| - j
    ensures r.Ok? <==> forall i :: j <= i < |ins| ==> scripts[i].Ok?
    ensures r.Ok? ==> |r.value| == |ins| - j
    ensures r.Ok? ==> forall i :: j <= i < |ins| ==> r.value[i - j] == ins[i].(script := scripts[i].value)
  {
    if j == |ins| then Ok([])
    else
      var rest := Rescript(ins, scripts, j + 1);
      if scripts[j].Err? then Err(scripts[j].error)
      else if rest.Err? then Err(rest.error)
      else
        var out := [ins[j].(script := scripts[j].value)] + rest.value;
        assert forall d :: 1 <= d < |out| ==> out[d] == rest.value[d - 1];
        Ok(out)
  }

  /** sign_coinvault_tx for the signer whose public key is `pub`
      (`privtopub(priv)`); `multisign(tx, j, redeem)` is the external signing
      primitive with the private key fixed. The parameters come from input 0
      only and are applied to every input; nothing but the input scripts
      changes. */
  function SignCoinvault(tx: Tx, pub: string, multisign: (Tx, nat, string) -> string,
                         parse: string -> seq<Item>): (r: Result<Tx>)
    ensures r.Ok? <==> && ReadParams(tx, parse).Ok?
                       && forall j :: 0 <= j < |tx.ins| ==>
                            SignedScript(tx, j, ReadParams(tx, parse).value, pub, multisign).Ok?
    ensures r.Ok? ==>
              var p := ReadParams(tx, parse).value;
              && r.value.version == tx.version
              && r.value.outs == tx.outs
              && r.value.locktime == tx.locktime
              && |r.value.ins| == |tx.ins|
              && forall j :: 0 <= j < |tx.ins| ==>
                   && r.value.ins[j].outpoint == tx.ins[j].outpoint
                   && r.value.ins[j].sequence == tx.ins[j].sequence
                   && Ok(r.value.ins[j].script) == SignedScript(tx, j, p, pub, multisign)
  {
    var p :- ReadParams(tx, parse);
    var scripts := seq(|tx.ins|, j requires 0 <= j < |tx.ins| => SignedScript(tx, j, p, pub, multisign));
    var ins :- Rescript(tx.ins, scripts, 0);
    Ok(tx.(ins := ins))
  }

  /** A freshly set-up transaction gives back the redeem script's
      parameters, and every input has room for all the keys. */
  lemma SetupReadsBack(tx: Tx, script: string, parse: string -> seq<Item>)
    requires |tx.ins| > 0
    requires |parse(script)| >= 2 && parse(script)[|parse(script)| - 2].Num?
    requires |Slice(parse(script), 1, -2)| <= parse(script)[|parse(script)| - 2].n
    ensures var t := SetupCoinvault(tx, script, parse).value;
            && ReadParams(t, parse) == Ok(VaultParams(script, parse(script)[0], Slice(parse(script), 1, -2)))
            && forall j :: 0 <= j < |t.ins| ==> |Slice(parse(script), 1, -2)| + 2 <= |t.ins[j].script|
  {
  }

  /** After setup with a redeem script whose key list fits in the `N` slots,
      one signer can always sign: every input keeps the redeem script as its
      last element. */
  lemma FirstSigningAfterSetup(tx: Tx, script: string, parse: string -> seq<Item>, pub: string,
                               multisign: (Tx, nat, string) -> string)
    requires |tx.ins| > 0
    requires |parse(script)| >= 2 && parse(script)[|parse(script)| - 2].Num?
    requires |Slice(parse(script), 1, -2)| <= parse(script)[|parse(script)| - 2].n
    ensures var t := SetupCoinvault(tx, script, parse).value;
            && ReadParams(t, parse) == Ok(VaultParams(script, parse(script)[0], Slice(parse(script), 1, -2)))
            && SignCoinvault(t, pub, multisign, parse).Ok?
            && forall j :: 0 <= j < |tx.ins| ==>
                 var s := SignCoinvault(t, pub, multisign, parse).value.ins[j].script;
                 |s| >= 1 && s[|s| - 1] == Data(script)
  {
    var t := SetupCoinvault(tx, script, parse).value;
    SetupReadsBack(tx, script, parse);
    var p := ReadParams(t, parse).value;
    forall j | 0 <= j < |t.ins|
      ensures SignedScript(t, j, p, pub, multisign).Ok?
      ensures RedeemKept(t.ins[j].script, SignedScript(t, j, p, pub, multisign).value)
    {
      var sig := Data(multisign(t, j, p.redeem));
      SigningKeepsLastWhenKeysFit(t.ins[j].script, p.pubs, pub, sig, p.k);
      StepKeepsRedeem(t.ins[j].script, SignInput(t.ins[j].script, p.pubs, pub, sig, p.k).value, p.pubs, pub, sig, p.k);
    }
    var r := SignCoinvault(t, pub, multisign, parse).value;
    forall j | 0 <= j < |tx.ins|
      ensures |r.ins[j].script| >= 1 && r.ins[j].script[|r.ins[j].script| - 1] == Data(script)
    {
      assert Ok(r.ins[j].script) == SignedScript(t, j, p, pub, multisign);
      assert t.ins[j].script[|t.ins[j].script| - 1] == Data(script);
      assert RedeemKept(t.ins[j].script, r.ins[j].script);
    }
  }


  // ---------------------------------------------------------------------------
  // Several co-signers on the whole transaction

  /** Two transactions that differ at most in their input scripts. */
  predicate SameButScripts(t1: Tx, t2: Tx) {
    && t1.version == t2.version
    && t1.outs == t2.outs
    && t1.locktime == t2.locktime
    && |t1.ins| == |t2.ins|
    && forall j :: 0 <= j < |t1.ins| ==>
         t1.ins[j].outpoint == t2.ins[j].outpoint && t1.ins[j].sequence == t2.ins[j].sequence
  }

  /** `multisign(tx, j, redeem, priv)` signs the signature form of `tx`, in
      which every input script is replaced, so a signature does not depend on
      what other signers have already written into the scripts. */
  ghost predicate IgnoresScripts(multisign: (Tx, nat, string, string) -> string) {
    forall t1, t2, j, redeem, priv :: SameButScripts(t1, t2) ==>
      multisign(t1, j, redeem, priv) == multisign(t2, j, redeem, priv)
  }

  /** sign_coinvault_tx(tx, priv): the signer's public key is `privtopub(priv)`
      and its signatures are `multisign(.., priv)`. */
  function SignWithKey(tx: Tx, priv: string, privtopub: string -> string,
                       multisign: (Tx, nat, string, string) -> string, parse: string -> seq<Item>): Result<Tx>
  {
    SignCoinvault(tx, privtopub(priv), (t: Tx, j: nat, redeem: string) => multisign(t, j, redeem, priv), parse)
  }

  /** sign_coinvault_tx called once per co-signer in the order of `privs`,
      each call on the transaction the previous call returned. */
  function SignInTurn(tx: Tx, privs: seq<string>, privtopub: string -> string,
                      multisign: (Tx, nat, string, string) -> string, parse: string -> seq<Item>): Result<Tx>
    decreases |privs|
  {
    if |privs| == 0 then Ok(tx)
    else
      var t :- SignWithKey(tx, privs[0], privtopub, multisign, parse);
      SignInTurn(t, privs[1..], privtopub, multisign, parse)
  }

  /** The co-signers as seen by input `j`: each public key with the signature
      made over `tx`. */
  function InputSigners(tx: Tx, j: nat, redeem: string, privs: seq<string>, privtopub: string -> string,
                        multisign: (Tx, nat, string, string) -> string): (r: seq<Signer>)
    decreases |privs|
    ensures |r| == |privs|
    ensures forall i :: 0 <= i < |privs| ==>
              r[i] == Signer(privtopub(privs[i]), Data(multisign(tx, j, redeem, privs[i])))
  {
    if |privs| == 0 then []
    else [Signer(privtopub(privs[0]), Data(multisign(tx, j, redeem, privs[0])))]
         + InputSigners(tx, j, redeem, privs[1..], privtopub, multisign)
  }

  lemma InputSignersConcat(tx: Tx, j: nat, redeem: string, a: seq<string>, b: seq<string>,
                           privtopub: string -> string, multisign: (Tx, nat, string, string) -> string)
    ensures InputSigners(tx, j, redeem, a + b, privtopub, multisign)
            == InputSigners(tx, j, redeem, a, privtopub, multisign) + InputSigners(tx, j, redeem, b, privtopub, multisign)
  {
  }

  /** Taking the co-signer at `i` out takes exactly its signer out. */
  lemma {:induction false} InputSignersRemove(tx: Tx, j: nat, redeem: string, privs: seq<string>, i: int,
                                              privtopub: string -> string,
                                              multisign: (Tx, nat, string, string) -> string)
    requires 0 <= i < |privs|
    ensures multiset(InputSigners(tx, j, redeem, privs, privtopub, multisign))
            == multiset(InputSigners(tx, j, redeem, privs[..i] + privs[i + 1..], privtopub, multisign))
               + multiset{InputSigners(tx, j, redeem, privs, privtopub, multisign)[i]}
  {
    var a := privs[..i];
    var b := privs[i + 1..];
    assert privs == a + [privs[i]] + b;
    InputSignersConcat(tx, j, redeem, a + [privs[i]], b, privtopub, multisign);
    InputSignersConcat(tx, j, redeem, a, [privs[i]], privtopub, multisign);
    InputSignersConcat(tx, j, redeem, a, b, privtopub, multisign);
  }

  /** The same co-signers in another order give input `j` the same signers in
      that order. */
  lemma {:induction false} InputSignersPermute(tx: Tx, j: nat, redeem: string, privs1: seq<string>, privs2: seq<string>,
                                               privtopub: string -> string, multisign: (Tx, nat, string, string) -> string)
    requires multiset(privs1) == multiset(privs2)
    ensures multiset(InputSigners(tx, j, redeem, privs1, privtopub, multisign))
            == multiset(InputSigners(tx, j, redeem, privs2, privtopub, multisign))
    decreases |privs1|
  {
    if |privs1| == 0 {
      assert |privs2| == |multiset(privs2)| == 0;
    } else {
      var i := MatchFirst(privs1, privs2);
      InputSignersPermute(tx, j, redeem, privs1[1..], privs2[..i] + privs2[i + 1..], privtopub, multisign);
      InputSignersRemove(tx, j, redeem, privs2, i, privtopub, multisign);
      InputSignersRemove(tx, j, redeem, privs1, 0, privtopub, multisign);
      assert privs1[..0] + privs1[1..] == privs1[1..];
    }
  }

  /** No signer before the last completes an input: the first signer only
      writes, and the remaining signers again complete nothing early. */
  lemma NoEarlyCompletionTail(scr: seq<Item>, pubs: seq<Item>, signers: seq<Signer>, k: Item)
    requires |pubs| + 2 <= |scr|
    requires |signers| > 1
    requires NoEarlyCompletion(scr, pubs, signers, k)
    ensures var w := Written(scr, pubs, signers[0].pub, signers[0].sig);
            && SignInput(scr, pubs, signers[0].pub, signers[0].sig, k) == Ok(w)
            && NoEarlyCompletion(w, pubs, signers[1..], k)
  {
    var g := signers[0];
    var w := Written(scr, pubs, g.pub, g.sig);
    var rest := signers[1..];
    assert signers[..1] == [g];
    assert [g][1..] == [];
    assert WriteAll(scr, pubs, [g]) == w;
    forall i | 1 <= i < |rest|
      ensures !Reached(|Signatures(Inner(WriteAll(w, pubs, rest[..i])))|, k)
    {
      assert signers[..i + 1][0] == g;
      assert signers[..i + 1][1..] == rest[..i];
      assert WriteAll(scr, pubs, signers[..i + 1]) == WriteAll(w, pubs, rest[..i]);
    }
  }

  /** One co-signer on a transaction whose inputs all have room for the
      keys: the call succeeds, changes only the input scripts, and gives each
      input the as-written step with a signature over the transaction passed
      in. */
  lemma FirstCoSigner(tx: Tx, p: VaultParams, priv: string, privtopub: string -> string,
                      multisign: (Tx, nat, string, string) -> string, parse: string -> seq<Item>)
    requires ReadParams(tx, parse) == Ok(p)
    requires forall j :: 0 <= j < |tx.ins| ==> |p.pubs| + 2 <= |tx.ins[j].script|
    ensures var r := SignWithKey(tx, priv, privtopub, multisign, parse);
            && r.Ok?
            && SameButScripts(tx, r.value)
            && forall j :: 0 <= j < |tx.ins| ==>
                 Ok(r.value.ins[j].script)
                 == SignInput(tx.ins[j].script, p.pubs, privtopub(priv), Data(multisign(tx, j, p.redeem, priv)), p.k)
  {
    var ms := (t: Tx, j: nat, redeem: string) => multisign(t, j, redeem, priv);
    forall j | 0 <= j < |tx.ins|
      ensures SignedScript(tx, j, p, privtopub(priv), ms).Ok?
    {
      SigningKeepsLastWhenKeysFit(tx.ins[j].script, p.pubs, privtopub(priv), Data(ms(tx, j, p.redeem)), p.k);
    }
  }

  /** A transaction whose first input script kept its last element reads
      back the same parameters. */
  lemma ParamsSurviveWrites(tx: Tx, t: Tx, p: VaultParams, parse: string -> seq<Item>)
    requires ReadParams(tx, parse) == Ok(p)
    requires SameButScripts(tx, t)
    requires RedeemKept(tx.ins[0].script, t.ins[0].script)
    ensures ReadParams(t, parse) == Ok(p)
  {
    assert |tx.ins| > 0 && |tx.ins[0].script| > 0;
  }

  /** Signatures over transactions that differ only in their scripts are the
      same. */
  lemma {:induction false} InputSignersIgnoreScripts(t1: Tx, t2: Tx, j: nat, redeem: string, privs: seq<string>,
                                                     privtopub: string -> string,
                                                     multisign: (Tx, nat, string, string) -> string)
    requires IgnoresScripts(multisign)
    requires SameButScripts(t1, t2)
    ensures InputSigners(t1, j, redeem, privs, privtopub, multisign)
            == InputSigners(t2, j, redeem, privs, privtopub, multisign)
  {
    forall i | 0 <= i < |privs|
      ensures multisign(t1, j, redeem, privs[i]) == multisign(t2, j, redeem, privs[i])
    {
    }
  }

  /** A single co-signer leaves each input as the one-signer series does. */
  lemma SoleCoSigner(tx: Tx, p: VaultParams, priv: string, privtopub: string -> string,
                     multisign: (Tx, nat, string, string) -> string, parse: string -> seq<Item>)
    requires ReadParams(tx, parse) == Ok(p)
    requires forall j :: 0 <= j < |tx.ins| ==> |p.pubs| + 2 <= |tx.ins[j].script|
    ensures var r := SignInTurn(tx, [priv], privtopub, multisign, parse);
            && r.Ok?
            && SameButScripts(tx, r.value)
            && forall j :: 0 <= j < |tx.ins| ==>
                 Ok(r.value.ins[j].script)
                 == SignAll(tx.ins[j].script, p.pubs, InputSigners(tx, j, p.redeem, [priv], privtopub, multisign), p.k)
  {
    FirstCoSigner(tx, p, priv, privtopub, multisign, parse);
    var t := SignWithKey(tx, priv, privtopub, multisign, parse).value;
    assert SignInTurn(tx, [priv], privtopub, multisign, parse) == Ok(t);
    forall j | 0 <= j < |tx.ins|
      ensures Ok(t.ins[j].script)
              == SignAll(tx.ins[j].script, p.pubs, InputSigners(tx, j, p.redeem, [priv], privtopub, multisign), p.k)
    {
      var ss := InputSigners(tx, j, p.redeem, [priv], privtopub, multisign);
      assert ss[1..] == [];
      SigningKeepsLastWhenKeysFit(tx.ins[j].script, p.pubs, ss[0].pub, ss[0].sig, p.k);
    }
  }

  /** On one input, the first of several signers leaves a script on which
      the rest complete nothing early and reach what the whole series
      reaches. */
  lemma NextSigner(scr: seq<Item>, next: seq<Item>, pubs: seq<Item>, signers: seq<Signer>, rest: seq<Signer>, k: Item)
    requires |pubs| + 2 <= |scr|
    requires |signers| > 1
    requires NoEarlyCompletion(scr, pubs, signers, k)
    requires Ok(next) == SignInput(scr, pubs, signers[0].pub, signers[0].sig, k)
    requires rest == signers[1..]
    ensures |pubs| + 2 <= |next|
    ensures NoEarlyCompletion(next, pubs, rest, k)
    ensures SignAll(scr, pubs, signers, k) == SignAll(next, pubs, rest, k)
  {
    NoEarlyCompletionTail(scr, pubs, signers, k);
  }

  /** Input 0 after one co-signer, as FirstCoSigner states it for every
      input. */
  lemma FirstInputSigned(tx: Tx, p: VaultParams, priv: string, privtopub: string -> string,
                         multisign: (Tx, nat, string, string) -> string, parse: string -> seq<Item>, t: Tx)
    requires ReadParams(tx, parse) == Ok(p)
    requires forall j :: 0 <= j < |tx.ins| ==> |p.pubs| + 2 <= |tx.ins[j].script|
    requires SignWithKey(tx, priv, privtopub, multisign, parse) == Ok(t)
    ensures SameButScripts(tx, t)
    ensures Ok(t.ins[0].script)
            == SignInput(tx.ins[0].script, p.pubs, privtopub(priv), Data(multisign(tx, 0, p.redeem, priv)), p.k)
  {
    FirstCoSigner(tx, p, priv, privtopub, multisign, parse);
  }

  /** One signing step whose keys fit keeps the redeem script last. */
  lemma StepKeepsRedeem(scr: seq<Item>, res: seq<Item>, pubs: seq<Item>, pub: string, sig: Item, k: Item)
    requires |pubs| + 2 <= |scr|
    requires Ok(res) == SignInput(scr, pubs, pub, sig, k)
    ensures RedeemKept(scr, res)
  {
    SigningKeepsLastWhenKeysFit(scr, pubs, pub, sig, k);
  }

  /** The first co-signer's transaction reads back the same parameters. */
  lemma ParamsSurviveSigning(tx: Tx, t: Tx, p: VaultParams, priv: string, privtopub: string -> string,
                             multisign: (Tx, nat, string, string) -> string, parse: string -> seq<Item>)
    requires ReadParams(tx, parse) == Ok(p)
    requires forall j :: 0 <= j < |tx.ins| ==> |p.pubs| + 2 <= |tx.ins[j].script|
    requires SignWithKey(tx, priv, privtopub, multisign, parse) == Ok(t)
    ensures ReadParams(t, parse) == Ok(p)
  {
    FirstInputSigned(tx, p, priv, privtopub, multisign, parse, t);
    StepKeepsRedeem(tx.ins[0].script, t.ins[0].script, p.pubs, privtopub(priv), Data(multisign(tx, 0, p.redeem, priv)), p.k);
    ParamsSurviveWrites(tx, t, p, parse);
  }

  /** The first of several co-signers hands on a transaction that reads back
      the same parameters, on which the remaining co-signers again complete
      no input early and each input faces the rest of the same series. */
  lemma {:induction false} HandOver(tx: Tx, privs: seq<string>, privtopub: string -> string,
                                    multisign: (Tx, nat, string, string) -> string,
                                    parse: string -> seq<Item>) returns (t: Tx)
    requires IgnoresScripts(multisign)
    requires ReadParams(tx, parse).Ok?
    requires |privs| > 1
    requires var p := ReadParams(tx, parse).value;
             forall j :: 0 <= j < |tx.ins| ==>
               && |p.pubs| + 2 <= |tx.ins[j].script|
               && NoEarlyCompletion(tx.ins[j].script, p.pubs,
                                    InputSigners(tx, j, p.redeem, privs, privtopub, multisign), p.k)
    ensures SignWithKey(tx, privs[0], privtopub, multisign, parse) == Ok(t)
    ensures SameButScripts(tx, t)
    ensures ReadParams(t, parse) == ReadParams(tx, parse)
    ensures var p := ReadParams(tx, parse).value;
            forall j :: 0 <= j < |tx.ins| ==>
              && |p.pubs| + 2 <= |t.ins[j].script|
              && NoEarlyCompletion(t.ins[j].script, p.pubs,
                                   InputSigners(t, j, p.redeem, privs[1..], privtopub, multisign), p.k)
              && SignAll(tx.ins[j].script, p.pubs, InputSigners(tx, j, p.redeem, privs, privtopub, multisign), p.k)
                 == SignAll(t.ins[j].script, p.pubs, InputSigners(t, j, p.redeem, privs[1..], privtopub, multisign), p.k)
  {
    var p := ReadParams(tx, parse).value;
    FirstCoSigner(tx, p, privs[0], privtopub, multisign, parse);
    t := SignWithKey(tx, privs[0], privtopub, multisign, parse).value;
    ParamsSurviveSigning(tx, t, p, privs[0], privtopub, multisign, parse);
    forall j | 0 <= j < |tx.ins|
      ensures && |p.pubs| + 2 <= |t.ins[j].script|
              && NoEarlyCompletion(t.ins[j].script, p.pubs,
                                   InputSigners(t, j, p.redeem, privs[1..], privtopub, multisign), p.k)
              && SignAll(tx.ins[j].script, p.pubs, InputSigners(tx, j, p.redeem, privs, privtopub, multisign), p.k)
                 == SignAll(t.ins[j].script, p.pubs, InputSigners(t, j, p.redeem, privs[1..], privtopub, multisign), p.k)
    {
      var ss := InputSigners(tx, j, p.redeem, privs, privtopub, multisign);
      InputSignersIgnoreScripts(t, tx, j, p.redeem, privs[1..], privtopub, multisign);
      NextSigner(tx.ins[j].script, t.ins[j].script, p.pubs, ss,
                 InputSigners(t, j, p.redeem, privs[1..], privtopub, multisign), p.k);
    }
  }

  /** The program run once per co-signer, input by input: when every input
      has room for the keys and on no input does a co-signer before the last
      complete it, each input ends as the as-written steps with signatures
      over the original transaction would leave it. */
  lemma {:induction false} SignInTurnPerInput(tx: Tx, privs: seq<string>, privtopub: string -> string,
                                              multisign: (Tx, nat, string, string) -> string,
                                              parse: string -> seq<Item>)
    requires IgnoresScripts(multisign)
    requires ReadParams(tx, parse).Ok?
    requires |privs| > 0
    requires var p := ReadParams(tx, parse).value;
             forall j :: 0 <= j < |tx.ins| ==>
               && |p.pubs| + 2 <= |tx.ins[j].script|
               && NoEarlyCompletion(tx.ins[j].script, p.pubs,
                                    InputSigners(tx, j, p.redeem, privs, privtopub, multisign), p.k)
    ensures var r := SignInTurn(tx, privs, privtopub, multisign, parse);
            var p := ReadParams(tx, parse).value;
            && r.Ok?
            && SameButScripts(tx, r.value)
            && forall j :: 0 <= j < |tx.ins| ==>
                 Ok(r.value.ins[j].script)
                 == SignAll(tx.ins[j].script, p.pubs, InputSigners(tx, j, p.redeem, privs, privtopub, multisign), p.k)
    decreases |privs|
  {
    var p := ReadParams(tx, parse).value;
    if |privs| == 1 {
      assert privs == [privs[0]];
      SoleCoSigner(tx, p, privs[0], privtopub, multisign, parse);
    } else {
      var rest := privs[1..];
      var t := HandOver(tx, privs, privtopub, multisign, parse);
      SignInTurnPerInput(t, rest, privtopub, multisign, parse);
      assert SignInTurn(tx, privs, privtopub, multisign, parse) == SignInTurn(t, rest, privtopub, multisign, parse);
    }
  }

  /** The co-signers of input `j` in two orders of the same private keys
      are the same signers rearranged, and distinct when the keys are. */
  lemma InputSignersArrangement(tx: Tx, j: nat, redeem: string, privs1: seq<string>, privs2: seq<string>,
                                privtopub: string -> string, multisign: (Tx, nat, string, string) -> string)
    requires multiset(privs1) == multiset(privs2)
    requires forall a, b :: 0 <= a < b < |privs1| ==> privtopub(privs1[a]) != privtopub(privs1[b])
    ensures multiset(InputSigners(tx, j, redeem, privs1, privtopub, multisign))
            == multiset(InputSigners(tx, j, redeem, privs2, privtopub, multisign))
    ensures DistinctSigners(InputSigners(tx, j, redeem, privs1, privtopub, multisign))
  {
    InputSignersPermute(tx, j, redeem, privs1, privs2, privtopub, multisign);
  }

  /** Two orders of the same distinct signers, as results of the program on
      one input: the scripts agree. */
  lemma SameSignedScript(scr: seq<Item>, pubs: seq<Item>, ss1: seq<Signer>, ss2: seq<Signer>, k: Item,
                         s1: seq<Item>, s2: seq<Item>)
    requires |pubs| + 2 <= |scr|
    requires |ss1| > 0
    requires multiset(ss1) == multiset(ss2)
    requires DistinctSigners(ss1)
    requires NoEarlyCompletion(scr, pubs, ss1, k) && NoEarlyCompletion(scr, pubs, ss2, k)
    requires Ok(s1) == SignAll(scr, pubs, ss1, k) && Ok(s2) == SignAll(scr, pubs, ss2, k)
    ensures s1 == s2
  {
    SigningOrderIrrelevant(scr, pubs, ss1, ss2, k);
  }

  lemma CoSignersOnEveryInput(tx: Tx, p: VaultParams, r1: Tx, r2: Tx, privs1: seq<string>, privs2: seq<string>,
                              privtopub: string -> string, multisign: (Tx, nat, string, string) -> string)
    requires |privs1| > 0
    requires multiset(privs1) == multiset(privs2)
    requires forall a, b :: 0 <= a < b < |privs1| ==> privtopub(privs1[a]) != privtopub(privs1[b])
    requires |r1.ins| == |tx.ins| && |r2.ins| == |tx.ins|
    requires forall j :: 0 <= j < |tx.ins| ==>
               && |p.pubs| + 2 <= |tx.ins[j].script|
               && NoEarlyCompletion(tx.ins[j].script, p.pubs,
                                    InputSigners(tx, j, p.redeem, privs1, privtopub, multisign), p.k)
               && NoEarlyCompletion(tx.ins[j].script, p.pubs,
                                    InputSigners(tx, j, p.redeem, privs2, privtopub, multisign), p.k)
    requires forall j :: 0 <= j < |tx.ins| ==>
               && Ok(r1.ins[j].script) == SignAll(tx.ins[j].script, p.pubs, InputSigners(tx, j, p.redeem, privs1, privtopub, multisign), p.k)
               && Ok(r2.ins[j].script) == SignAll(tx.ins[j].script, p.pubs, InputSigners(tx, j, p.redeem, privs2, privtopub, multisign), p.k)
    ensures forall j :: 0 <= j < |tx.ins| ==> r1.ins[j].script == r2.ins[j].script
  {
    forall j | 0 <= j < |tx.ins|
      ensures r1.ins[j].script == r2.ins[j].script
    {
      InputSignersArrangement(tx, j, p.redeem, privs1, privs2, privtopub, multisign);
      SameSignedScript(tx.ins[j].script, p.pubs, InputSigners(tx, j, p.redeem, privs1, privtopub, multisign),
                       InputSigners(tx, j, p.redeem, privs2, privtopub, multisign), p.k,
                       r1.ins[j].script, r2.ins[j].script);
    }
  }

  /** Two transactions that differ from a third only in their scripts, and
      have the same scripts, are equal. */
  lemma SameScriptsSameTx(tx: Tx, r1: Tx, r2: Tx)
    requires SameButScripts(tx, r1) && SameButScripts(tx, r2)
    requires forall j :: 0 <= j < |tx.ins| ==> r1.ins[j].script == r2.ins[j].script
    ensures r1 == r2
  {
    assert forall j :: 0 <= j < |r1.ins| ==> r1.ins[j] == r2.ins[j];
  }

  /** The script a series of signers leaves keeps the redeem script last. */
  lemma SeriesKeepsRedeem(scr: seq<Item>, res: seq<Item>, pubs: seq<Item>, signers: seq<Signer>, k: Item)
    requires |pubs| + 2 <= |scr|
    requires |signers| > 0
    requires NoEarlyCompletion(scr, pubs, signers, k)
    requires Ok(res) == SignAll(scr, pubs, signers, k)
    ensures RedeemKept(scr, res)
  {
    var s := SignAllLast(scr, pubs, signers, k);
    assert res == s;
  }

  /** Co-signers with distinct keys who each call sign_coinvault_tx once
      produce the same transaction whatever order they call it in, provided
      the signing primitive signs the script-free signature form and on no
      input does a co-signer before the last complete it (in either order).
      Every call succeeds and every input keeps its redeem script last. */
  lemma {:induction false} SignInTurnOrderIrrelevant(tx: Tx, privs1: seq<string>, privs2: seq<string>,
                                                     privtopub: string -> string,
                                                     multisign: (Tx, nat, string, string) -> string,
                                                     parse: string -> seq<Item>)
    returns (r: Tx)
    requires IgnoresScripts(multisign)
    requires ReadParams(tx, parse).Ok?
    requires |privs1| > 0
    requires multiset(privs1) == multiset(privs2)
    requires forall a, b :: 0 <= a < b < |privs1| ==> privtopub(privs1[a]) != privtopub(privs1[b])
    requires var p := ReadParams(tx, parse).value;
             forall j :: 0 <= j < |tx.ins| ==>
               && |p.pubs| + 2 <= |tx.ins[j].script|
               && NoEarlyCompletion(tx.ins[j].script, p.pubs,
                                    InputSigners(tx, j, p.redeem, privs1, privtopub, multisign), p.k)
               && NoEarlyCompletion(tx.ins[j].script, p.pubs,
                                    InputSigners(tx, j, p.redeem, privs2, privtopub, multisign), p.k)
    ensures SignInTurn(tx, privs1, privtopub, multisign, parse) == Ok(r)
    ensures SignInTurn(tx, privs2, privtopub, multisign, parse) == Ok(r)
    ensures SameButScripts(tx, r)
    ensures var p := ReadParams(tx, parse).value;
            forall j :: 0 <= j < |tx.ins| ==>
              Ok(r.ins[j].script) == SignAll(tx.ins[j].script, p.pubs,
                                             InputSigners(tx, j, p.redeem, privs1, privtopub, multisign), p.k)
    ensures forall j :: 0 <= j < |tx.ins| ==> RedeemKept(tx.ins[j].script, r.ins[j].script)
  {
    var p := ReadParams(tx, parse).value;
    assert |privs2| == |multiset(privs2)| == |multiset(privs1)| == |privs1|;
    SignInTurnPerInput(tx, privs1, privtopub, multisign, parse);
    SignInTurnPerInput(tx, privs2, privtopub, multisign, parse);
    var r1 := SignInTurn(tx, privs1, privtopub, multisign, parse).value;
    var r2 := SignInTurn(tx, privs2, privtopub, multisign, parse).value;
    CoSignersOnEveryInput(tx, p, r1, r2, privs1, privs2, privtopub, multisign);
    SameScriptsSameTx(tx, r1, r2);
    r := r1;
    forall j | 0 <= j < |tx.ins|
      ensures RedeemKept(tx.ins[j].script, r.ins[j].script)
    {
      SeriesKeepsRedeem(tx.ins[j].script, r.ins[j].script, p.pubs,
                        InputSigners(tx, j, p.redeem, privs1, privtopub, multisign), p.k);
    }
  }

  /** One signing step with an integer threshold on a script whose slots
      fit, spelled out. */
  lemma SignStep(scr: seq<Item>, pubs: seq<Item>, pub: string, sig: Item, n: nat)
    requires |pubs| + 2 <= |scr|
    ensures var w := Written(scr, pubs, pub, sig);
            var sigs := Signatures(Inner(w));
            SignInput(scr, pubs, pub, sig, Num(n))
            == if |sigs| >= n then Ok([Nil] + sigs[..n] + [w[|w| - 1]]) else Ok(w)
  {
    var sigs := Signatures(Inner(Written(scr, pubs, pub, sig)));
    if |sigs| >= n {
      assert Keep(sigs, Num(n)) == sigs[..n];
    }
  }

  /** A single signing step of the two-of-three walk-through, with the
      middle of the written script spelled out. */
  lemma ScenarioStep(scr: seq<Item>, pub: string, sig: string)
    requires |scr| == 5
    ensures var w := Written(scr, [Data("A"), Data("B"), Data("C")], pub, Data(sig));
            var sigs := Signatures([w[1], w[2], w[3]]);
            SignInput(scr, [Data("A"), Data("B"), Data("C")], pub, Data(sig), Num(2))
            == if |sigs| >= 2 then Ok([Nil] + sigs[..2] + [w[4]]) else Ok(w)
  {
    var w := Written(scr, [Data("A"), Data("B"), Data("C")], pub, Data(sig));
    assert Inner(w) == [w[1], w[2], w[3]];
    SignStep(scr, [Data("A"), Data("B"), Data("C")], pub, Data(sig), 2);
  }

  lemma ScenarioWrites()
    ensures var pubs := [Data("A"), Data("B"), Data("C")];
            var slots := [Nil, Nil, Nil, Nil, Data("R")];
            var both := [Nil, Data("sa"), Data("sb"), Nil, Data("R")];
            && Written(slots, pubs, "A", Data("sa")) == [Nil, Data("sa"), Nil, Nil, Data("R")]
            && Written(slots, pubs, "B", Data("sb")) == [Nil, Nil, Data("sb"), Nil, Data("R")]
            && Written([Nil, Data("sa"), Nil, Nil, Data("R")], pubs, "B", Data("sb")) == both
            && Written([Nil, Nil, Data("sb"), Nil, Data("R")], pubs, "A", Data("sa")) == both
  {
    assert "A"[0] != "B"[0] && "B"[0] != "C"[0] && "A"[0] != "C"[0];
  }

  lemma ScenarioSlots()
    ensures Blanks(4) + [Data("R")] == [Nil, Nil, Nil, Nil, Data("R")]
  {
  }

  lemma ScenarioFilters()
    ensures Signatures([Data("sa"), Nil, Nil]) == [Data("sa")]
    ensures Signatures([Nil, Data("sb"), Nil]) == [Data("sb")]
    ensures Signatures([Data("sa"), Data("sb"), Nil]) == [Data("sa"), Data("sb")]
  {
    assert Signatures([Nil]) == [];
    assert [Data("sb"), Nil][1..] == [Nil];
    assert Signatures([Data("sb"), Nil]) == [Data("sb")];
    assert [Nil, Nil][1..] == [Nil];
    assert Signatures([Nil, Nil]) == [];
  }

  lemma ScenarioFirstA()
    ensures SignInput([Nil, Nil, Nil, Nil, Data("R")], [Data("A"), Data("B"), Data("C")], "A", Data("sa"), Num(2))
            == Ok([Nil, Data("sa"), Nil, Nil, Data("R")])
  {
    ScenarioWrites();
    ScenarioFilters();
    ScenarioStep([Nil, Nil, Nil, Nil, Data("R")], "A", "sa");
  }

  lemma ScenarioFirstB()
    ensures SignInput([Nil, Nil, Nil, Nil, Data("R")], [Data("A"), Data("B"), Data("C")], "B", Data("sb"), Num(2))
            == Ok([Nil, Nil, Data("sb"), Nil, Data("R")])
  {
    ScenarioWrites();
    ScenarioFilters();
    ScenarioStep([Nil, Nil, Nil, Nil, Data("R")], "B", "sb");
  }

  /** The two-of-three walk-through, first signature: A or B alone fills
      their own slot and the input stays incomplete. */
  lemma TwoOfThreeFirstSigner()
    ensures var slots := Blanks(4) + [Data("R")];
            && SignInput(slots, [Data("A"), Data("B"), Data("C")], "A", Data("sa"), Num(2))
               == Ok([Nil, Data("sa"), Nil, Nil, Data("R")])
            && SignInput(slots, [Data("A"), Data("B"), Data("C")], "B", Data("sb"), Num(2))
               == Ok([Nil, Nil, Data("sb"), Nil, Data("R")])
  {
    ScenarioSlots();
    ScenarioFirstA();
    ScenarioFirstB();
  }

  /** The two-of-three walk-through, second signature: whichever of A and B
      signs second completes the input as `[None, sig_A, sig_B, redeem]`. */
  lemma TwoOfThreeSecondSigner()
    ensures var done := [Nil, Data("sa"), Data("sb"), Data("R")];
            && SignInput([Nil, Data("sa"), Nil, Nil, Data("R")], [Data("A"), Data("B"), Data("C")],
                         "B", Data("sb"), Num(2)) == Ok(done)
            && SignInput([Nil, Nil, Data("sb"), Nil, Data("R")], [Data("A"), Data("B"), Data("C")],
                         "A", Data("sa"), Num(2)) == Ok(done)
  {
    var both := [Nil, Data("sa"), Data("sb"), Nil, Data("R")];
    var done := [Nil, Data("sa"), Data("sb"), Data("R")];
    ScenarioWrites();
    ScenarioFilters();
    assert [Nil] + [Data("sa"), Data("sb")][..2] + [Data("R")] == done;
    ScenarioStep([Nil, Data("sa"), Nil, Nil, Data("R")], "B", "sb");
    ScenarioStep([Nil, Nil, Data("sb"), Nil, Data("R")], "A", "sa");
  }

  // ---------------------------------------------------------------------------
  // Signing a completed input (see Findings)

  /** As written, a signer whose key index lies past the compacted slots
      writes over the redeem script (2-of-3, third signer C) or raises
      (2-of-4, fourth signer D); a signer whose index falls on a kept slot
      replaces that signature. */
  lemma LateSignerCorruptsCompletedInput()
    ensures var done := [Nil, Data("sa"), Data("sb"), Data("R")];
            && SignInput(done, [Data("A"), Data("B"), Data("C")], "C", Data("sc"), Num(2))
               == Ok([Nil, Data("sa"), Data("sb"), Data("sc")])
            && SignInput(done, [Data("A"), Data("B"), Data("C"), Data("D")], "D", Data("sd"), Num(2))
               == Err(IndexError)
            && SignInput([Nil, Data("sc"), Data("R")], [Data("A"), Data("B"), Data("C")], "A", Data("sa"), Num(1))
               == Ok([Nil, Data("sa"), Data("R")])
  {
    LateSignerOverwritesRedeem();
    assert Writes([Data("A"), Data("B"), Data("C"), Data("D")], "D", 4);
    LateSignerReplacesSignature();
  }

  lemma LateSignerOverwritesRedeem()
    ensures SignInput([Nil, Data("sa"), Data("sb"), Data("R")], [Data("A"), Data("B"), Data("C")], "C", Data("sc"), Num(2))
            == Ok([Nil, Data("sa"), Data("sb"), Data("sc")])
  {
    var done := [Nil, Data("sa"), Data("sb"), Data("R")];
    var pubs3 := [Data("A"), Data("B"), Data("C")];
    var w := [Nil, Data("sa"), Data("sb"), Data("sc")];
    assert Written(done, pubs3, "C", Data("sc")) == w;
    assert Inner(w) == [Data("sa"), Data("sb")];
    assert Signatures([Data("sa"), Data("sb")]) == [Data("sa"), Data("sb")];
    assert Keep([Data("sa"), Data("sb")], Num(2)) == [Data("sa"), Data("sb")];
    assert InRange(done, pubs3, "C");
    assert [Nil] + [Data("sa"), Data("sb")] + [Data("sc")] == w;
  }

  lemma LateSignerReplacesSignature()
    ensures SignInput([Nil, Data("sc"), Data("R")], [Data("A"), Data("B"), Data("C")], "A", Data("sa"), Num(1))
            == Ok([Nil, Data("sa"), Data("R")])
  {
    var pubs3 := [Data("A"), Data("B"), Data("C")];
    var w1 := [Nil, Data("sa"), Data("R")];
    assert "A"[0] != "B"[0] && "A"[0] != "C"[0];
    assert Written([Nil, Data("sc"), Data("R")], pubs3, "A", Data("sa")) == w1;
    assert Inner(w1) == [Data("sa")];
    assert Signatures([Data("sa")]) == [Data("sa")];
    assert Keep([Data("sa")], Num(1)) == [Data("sa")];
    assert InRange([Nil, Data("sc"), Data("R")], pubs3, "A");
    assert [Nil] + [Data("sa")] + [Data("R")] == w1;
  }

  /** The corrected signing step: an input that already holds `k` signatures
      is left as it is, as a signer who cannot see the current state expects.
      A vault-shaped input (redeem script last, either all slots present or
      complete) stays vault-shaped, and a complete input stays complete. */
  function SignInputGuarded(scr: seq<Item>, pubs: seq<Item>, pub: string, sig: Item, k: Item): (r: Result<seq<Item>>)
    ensures |scr| >= 1 && (|pubs| + 2 <= |scr| || Reached(|Signatures(Inner(scr))|, k)) ==>
              && r.Ok?
              && |r.value| >= 1
              && r.value[|r.value| - 1] == scr[|scr| - 1]
              && (|r.value| == |scr| || Reached(|Signatures(Inner(r.value))|, k))
    ensures Reached(|Signatures(Inner(scr))|, k) ==> r.Ok? && Reached(|Signatures(Inner(r.value))|, k)
  {
    if Reached(|Signatures(Inner(scr))|, k) then Ok(scr)
    else
      assert |pubs| + 2 <= |scr| ==> SignInput(scr, pubs, pub, sig, k).Ok? by {
        if |pubs| + 2 <= |scr| {
          SigningKeepsLastWhenKeysFit(scr, pubs, pub, sig, k);
        }
      }
      SignInput(scr, pubs, pub, sig, k)
  }

  /** The corrected step applied for a series of signers, in call order. */
  function SignInSequence(scr: seq<Item>, pubs: seq<Item>, signers: seq<Signer>, k: Item): Result<seq<Item>>
    decreases |signers|
  {
    if |signers| == 0 then Ok(scr)
    else
      var s :- SignInputGuarded(scr, pubs, signers[0].pub, signers[0].sig, k);
      SignInSequence(s, pubs, signers[1..], k)
  }

  /** A vault input: the redeem script last, and either still the slots
      length `n+2` or complete. */
  predicate VaultShaped(s: seq<Item>, n: int, redeem: string, k: Item) {
    && |s| >= 1
    && s[|s| - 1] == Data(redeem)
    && (|s| == n + 2 || Reached(|Signatures(Inner(s))|, k))
  }

  lemma {:induction false} GuardedSequenceKeepsShape(s: seq<Item>, pubs: seq<Item>, signers: seq<Signer>,
                                                     n: int, redeem: string, k: Item)
    requires |pubs| <= n
    requires VaultShaped(s, n, redeem, k)
    ensures SignInSequence(s, pubs, signers, k).Ok?
    ensures VaultShaped(SignInSequence(s, pubs, signers, k).value, n, redeem, k)
    decreases |signers|
  {
    if |signers| > 0 {
      var g := signers[0];
      var r := SignInputGuarded(s, pubs, g.pub, g.sig, k);
      if !Reached(|Signatures(Inner(s))|, k) {
        assert |s| == n + 2;
        SigningKeepsLastWhenKeysFit(s, pubs, g.pub, g.sig, k);
        assert r == SignInput(s, pubs, g.pub, g.sig, k);
      }
      assert r.Ok? && VaultShaped(r.value, n, redeem, k);
      GuardedSequenceKeepsShape(r.value, pubs, signers[1..], n, redeem, k);
      assert SignInSequence(s, pubs, signers, k) == SignInSequence(r.value, pubs, signers[1..], k);
    }
  }

  /** A freshly set-up input is vault-shaped. */
  lemma FreshInputVaultShaped(n: int, redeem: string, k: Item)
    requires n >= 0
    ensures VaultShaped(Blanks(n + 1) + [Data(redeem)], n, redeem, k)
  {
    var slots := Blanks(n + 1) + [Data(redeem)];
    assert slots[n + 1] == Data(redeem);
  }

  /** With the corrected step, any series of signers on a freshly set-up
      input never fails and leaves a vault input: the redeem script last,
      and either all the slots or a complete input. */
  lemma {:induction false} GuardedSigningKeepsRedeem(n: int, redeem: string, pubs: seq<Item>, signers: seq<Signer>, k: Item)
    requires |pubs| <= n
    ensures var r := SignInSequence(Blanks(n + 1) + [Data(redeem)], pubs, signers, k);
            r.Ok? && VaultShaped(r.value, n, redeem, k)
  {
    var slots := Blanks(n + 1) + [Data(redeem)];
    FreshInputVaultShaped(n, redeem, k);
    GuardedSequenceKeepsShape(slots, pubs, signers, n, redeem, k);
  }

  /** With the corrected step, a complete input stays exactly as it is
      whoever signs afterwards. */
  lemma {:induction false} GuardedCompleteIsFinal(s: seq<Item>, pubs: seq<Item>, signers: seq<Signer>, k: Item)
    requires Reached(|Signatures(Inner(s))|, k)
    ensures SignInSequence(s, pubs, signers, k) == Ok(s)
    decreases |signers|
  {
    if |signers| > 0 {
      GuardedCompleteIsFinal(s, pubs, signers[1..], k);
    }
  }
}

=== FILE: compose.dfy ===
/** Building spends from `"address:value"` output requests (`sendmultitx`,
    `preparemultitx`, `send`, `preparetx`): the outputs are parsed and summed
    into the target handed to coin selection, and the argument list for
    `mksend` is laid out as selected inputs, outputs, change address, fee. */
module Compose {
  import opened Results
  import opened PyValues

  /** The fee `send` and `preparetx` use when none is given, in satoshis. */
  const DefaultFee := 10000

  /** An unspent output as the chain lookup reports it. */
  datatype Utxo = Utxo(output: string, value: nat)

  /** One argument passed to `mksend`: a selected input, or a plain value
      (an output request, the change address or the fee). */
  datatype SendArg = Spend(u: Utxo) | Plain(v: Value)

  /** What the composition settles on: the target value coin selection was
      asked for, and the arguments `mksend` receives. */
  datatype SendPlan = SendPlan(target: int, args: seq<SendArg>)

  /** `int(a.split(":")[1])`: the value of one output request. Only a string
      has `split`; a request without a colon has no second piece. */
  function OutputValue(a: Value): (r: Result<int>)
    ensures !a.Str? ==> r == Err(AttributeError)
  {
    if !a.Str? then Err(AttributeError)
    else
      var parts := Split(a.s, ':');
      if |parts| < 2 then Err(IndexError)
      else if ParseInt(parts[1]).None? then Err(ValueError)
      else Ok(ParseInt(parts[1]).value)
  }

  /** A request without a colon fails with `IndexError`; one that parses has
      a colon. */
  lemma OutputValueNeedsColon(a: Value)
    requires a.Str?
    ensures ':' !in a.s ==> OutputValue(a) == Err(IndexError)
    ensures OutputValue(a).Ok? ==> ':' in a.s
  {
    if ':' !in a.s {
      SplitNoSeparator(a.s, ':');
    }
  }

  /** An output request built as `to + ":" + str(value)` is read back as
      `value`, as long as the address has no colon of its own. */
  lemma OutputValueOfRequest(to: string, value: int)
    requires ':' !in to
    ensures OutputValue(Str(to + ":" + IntToString(value))) == Ok(value)
  {
    var shown := IntToString(value);
    ParseShowsInverse(value);
    SplitAtFirst(to, ':', shown);
    SplitNoSeparator(shown, ':');
    assert to + ":" + shown == to + [':'] + shown;
  }

  /** The loop summing the output requests, in caller order. */
  function OutputTotal(tv: seq<Value>): Result<int>
    decreases |tv|
  {
    if |tv| == 0 then Ok(0)
    else
      var before := OutputTotal(tv[..|tv| - 1]);
      var last := OutputValue(tv[|tv| - 1]);
      if before.Err? then Err(before.error)
      else if last.Err? then Err(last.error)
      else Ok(before.value + last.value)
  }

  /** The sum succeeds exactly when every request parses. */
  lemma {:induction false} OutputTotalOk(tv: seq<Value>)
    ensures OutputTotal(tv).Ok? <==> forall t :: 0 <= t < |tv| ==> OutputValue(tv[t]).Ok?
    decreases |tv|
  {
    if |tv| > 0 {
      var init := tv[..|tv| - 1];
      OutputTotalOk(init);
      assert forall t :: 0 <= t < |init| ==> init[t] == tv[t];
    }
  }

  /** The loop stops at the first request that does not parse and reports its
      error. */
  lemma {:induction false} OutputTotalFirstError(tv: seq<Value>) returns (t: int)
    requires OutputTotal(tv).Err?
    ensures 0 <= t < |tv| && OutputValue(tv[t]).Err?
    ensures OutputTotal(tv) == Err(OutputValue(tv[t]).error)
    ensures forall u :: 0 <= u < t ==> OutputValue(tv[u]).Ok?
    decreases |tv|
  {
    var init := tv[..|tv| - 1];
    OutputTotalOk(init);
    if OutputTotal(init).Err? {
      t := OutputTotalFirstError(init);
      assert init[t] == tv[t];
      assert forall u :: 0 <= u < t ==> init[u] == tv[u];
    } else {
      t := |tv| - 1;
      assert forall u :: 0 <= u < t ==> init[u] == tv[u];
    }
  }

  /** The total of two batches of requests is the sum of their totals. */
  lemma {:induction false} OutputTotalAppend(a: seq<Value>, b: seq<Value>)
    requires OutputTotal(a).Ok? && OutputTotal(b).Ok?
    ensures OutputTotal(a + b) == Ok(OutputTotal(a).value + OutputTotal(b).value)
    decreases |b|
  {
    if |b| == 0 {
      assert a + b == a;
    } else {
      var b' := b[..|b| - 1];
      var x := b[|b| - 1];
      var ab := a + b;
      assert OutputTotal(b') .Ok? && OutputValue(x).Ok? &&
             OutputTotal(b).value == OutputTotal(b').value + OutputValue(x).value;
      OutputTotalAppend(a, b');
      assert ab[..|ab| - 1] == a + b';
      assert ab[|ab| - 1] == x;
    }
  }

  /** The total of a single request is its value. */
  lemma OutputTotalSingle(a: Value)
    ensures OutputTotal([a]) == (if OutputValue(a).Ok? then Ok(OutputValue(a).value) else Err(OutputValue(a).error))
  {
    assert [a][..0] == [];
  }

  function Spends(sel: seq<Utxo>): (r: seq<SendArg>)
    ensures |r| == |sel| && forall i :: 0 <= i < |sel| ==> r[i] == Spend(sel[i])
  {
    seq(|sel|, i requires 0 <= i < |sel| => Spend(sel[i]))
  }

  function Plains(vs: seq<Value>): (r: seq<SendArg>)
    ensures |r| == |vs| && forall i :: 0 <= i < |vs| ==> r[i] == Plain(vs[i])
  {
    seq(|vs|, i requires 0 <= i < |vs| => Plain(vs[i]))
  }

  /** The order `mksend` expects: the selected inputs, then the output
      requests as the caller gave them, then the change address, then the
      fee. */
  predicate MksendLayout(args: seq<SendArg>, sel: seq<Utxo>, outs: seq<Value>, change: string, fee: int) {
    && |args| == |sel| + |outs| + 2
    && (forall i :: 0 <= i < |sel| ==> args[i] == Spend(sel[i]))
    && (forall i :: 0 <= i < |outs| ==> args[|sel| + i] == Plain(outs[i]))
    && args[|sel| + |outs|] == Plain(Str(change))
    && args[|sel| + |outs| + 1] == Plain(Int(fee))
  }

  /** The output requests of a call, their total and the fee. */
  datatype Request = Request(outs: seq<Value>, outvalue: int, fee: int)

  /** The first half of `preparemultitx` and `sendmultitx`: the last
      argument is the fee and is converted first; the others are output
      requests, summed in order. */
  function ReadRequest(args: seq<Value>): (r: Result<Request>)
    ensures |args| == 0 ==> r == Err(IndexError)
    ensures |args| > 0 && ToInt(args[|args| - 1]).Err? ==> r == Err(ToInt(args[|args| - 1]).error)
    ensures |args| > 0 && ToInt(args[|args| - 1]).Ok? && OutputTotal(args[..|args| - 1]).Err? ==>
              r == Err(OutputTotal(args[..|args| - 1]).error)
    ensures r.Ok? <==> |args| > 0 && ToInt(args[|args| - 1]).Ok? && OutputTotal(args[..|args| - 1]).Ok?
    ensures r.Ok? ==> && r.value.outs == args[..|args| - 1]
                      && r.value.fee == ToInt(args[|args| - 1]).value
                      && r.value.outvalue == OutputTotal(r.value.outs).value
  {
    if |args| == 0 then Err(IndexError)
    else
      var fee :- ToInt(args[|args| - 1]);
      var outvalue :- OutputTotal(args[..|args| - 1]);
      Ok(Request(args[..|args| - 1], outvalue, fee))
  }

  /** The second half: coin selection for the requested total plus the fee,
      then the arguments for `mksend`. */
  function Assemble(frm: string, rq: Request, unspent: string -> seq<Utxo>,
                    select: (seq<Utxo>, int) -> Option<seq<Utxo>>): (r: Result<SendPlan>)
    ensures r.Ok? <==> select(unspent(frm), rq.outvalue + rq.fee).Some?
    ensures r.Err? ==> r.error == SelectFailed
    ensures r.Ok? ==> && r.value.target == rq.outvalue + rq.fee
                      && MksendLayout(r.value.args, select(unspent(frm), r.value.target).value,
                                      rq.outs, frm, rq.fee)
  {
    var target := rq.outvalue + rq.fee;
    var chosen := select(unspent(frm), target);
    if chosen.None? then Err(SelectFailed)
    else Ok(SendPlan(target, Spends(chosen.value) + Plains(rq.outs) + [Plain(Str(frm)), Plain(Int(rq.fee))]))
  }

  /** `preparemultitx(frm, *args)`: `select` is given the sender's unspent
      outputs and the requested total plus the fee; `mksend` gets the
      selected inputs, the requests in caller order, the sender as change
      address and the fee. */
  function PrepareMultiTx(frm: string, args: seq<Value>, unspent: string -> seq<Utxo>,
                          select: (seq<Utxo>, int) -> Option<seq<Utxo>>): (r: Result<SendPlan>)
    ensures ReadRequest(args).Err? ==> r == Err(ReadRequest(args).error)
    ensures r.Ok? <==> && ReadRequest(args).Ok?
                       && select(unspent(frm), ReadRequest(args).value.outvalue + ReadRequest(args).value.fee).Some?
    ensures r.Ok? ==>
              var rq := ReadRequest(args).value;
              && r.value.target == rq.outvalue + rq.fee
              && MksendLayout(r.value.args, select(unspent(frm), r.value.target).value, rq.outs, frm, rq.fee)
  {
    var rq :- ReadRequest(args);
    Assemble(frm, rq, unspent, select)
  }

  /** `sendmultitx(frm, *args)`: as `preparemultitx`, with the private key's
      address as the source of the unspent outputs and as the change
      address. */
  function SendMultiTx(priv: string, args: seq<Value>, privtoaddr: string -> string,
                       unspent: string -> seq<Utxo>,
                       select: (seq<Utxo>, int) -> Option<seq<Utxo>>): (r: Result<SendPlan>)
    ensures ReadRequest(args).Err? ==> r == Err(ReadRequest(args).error)
    ensures r.Ok? <==> && ReadRequest(args).Ok?
                       && select(unspent(privtoaddr(priv)),
                                 ReadRequest(args).value.outvalue + ReadRequest(args).value.fee).Some?
    ensures r.Ok? ==>
              var rq := ReadRequest(args).value;
              && r.value.target == rq.outvalue + rq.fee
              && MksendLayout(r.value.args, select(unspent(privtoaddr(priv)), r.value.target).value,
                              rq.outs, privtoaddr(priv), rq.fee)
  {
    PrepareMultiTx(privtoaddr(priv), args, unspent, select)
  }

  /** Read a `mksend` argument list back, given how many selected inputs
      lead it: the output requests, the change address and the fee. */
  function UnpackSend(args: seq<SendArg>, nsel: nat): Option<(seq<Value>, string, int)> {
    if |args| < nsel + 2 then None
    else
      var change := args[|args| - 2];
      var fee := args[|args| - 1];
      if !(change.Plain? && change.v.Str? && fee.Plain? && fee.v.Int?) then None
      else if exists i :: nsel <= i < |args| - 2 && args[i].Spend? then None
      else Some((seq(|args| - 2 - nsel, i requires 0 <= i < |args| - 2 - nsel => args[nsel + i].v),
                 change.v.s, fee.v.n))
  }

  /** The layout loses nothing: the requests, the change address and the fee
      can be read back from the argument list. */
  lemma LayoutUnpacks(args: seq<SendArg>, sel: seq<Utxo>, outs: seq<Value>, change: string, fee: int)
    requires MksendLayout(args, sel, outs, change, fee)
    ensures UnpackSend(args, |sel|) == Some((outs, change, fee))
  {
    assert forall i :: |sel| <= i < |args| - 2 ==> args[i] == Plain(outs[i - |sel|]);
    var got := seq(|args| - 2 - |sel|, i requires 0 <= i < |args| - 2 - |sel| => args[|sel| + i].v);
    assert got == outs;
  }

  /** `preparetx(frm, to, value, fee)`: a single output request. */
  function PrepareTx(frm: string, to: string, value: int, fee: Value, unspent: string -> seq<Utxo>,
                     select: (seq<Utxo>, int) -> Option<seq<Utxo>>): Result<SendPlan>
  {
    PrepareMultiTx(frm, [Str(to + ":" + IntToString(value)), fee], unspent, select)
  }

  /** `send(frm, to, value, fee)`: a single output request, spent from the
      private key's address. */
  function Send(priv: string, to: string, value: int, fee: Value, privtoaddr: string -> string,
                unspent: string -> seq<Utxo>,
                select: (seq<Utxo>, int) -> Option<seq<Utxo>>): Result<SendPlan>
  {
    SendMultiTx(priv, [Str(to + ":" + IntToString(value)), fee], privtoaddr, unspent, select)
  }

  /** Reading one well-formed request and a fee. */
  lemma SingleRequestRead(req: Value, fee: Value)
    requires OutputValue(req).Ok?
    ensures ToInt(fee).Err? ==> ReadRequest([req, fee]) == Err(ToInt(fee).error)
    ensures ToInt(fee).Ok? ==> ReadRequest([req, fee]) == Ok(Request([req], OutputValue(req).value, ToInt(fee).value))
  {
    OutputTotalSingle(req);
    assert [req, fee][..1] == [req];
  }

  /** A single payment `to:value` is read back as exactly that request, with
      the amount as the requested total. */
  lemma PaymentRequestReadsBack(to: string, value: int, fee: Value)
    requires ':' !in to
    ensures var req := Str(to + ":" + IntToString(value));
            && (ToInt(fee).Err? ==> ReadRequest([req, fee]) == Err(ToInt(fee).error))
            && (ToInt(fee).Ok? ==> ReadRequest([req, fee]) == Ok(Request([req], value, ToInt(fee).value)))
  {
    OutputValueOfRequest(to, value);
    SingleRequestRead(Str(to + ":" + IntToString(value)), fee);
  }

  /** `preparemultitx` on arguments that read as the request `rq`. */
  lemma PlanOfRequest(frm: string, args: seq<Value>, rq: Request, unspent: string -> seq<Utxo>,
                      select: (seq<Utxo>, int) -> Option<seq<Utxo>>)
    requires ReadRequest(args) == Ok(rq)
    ensures var r := PrepareMultiTx(frm, args, unspent, select);
            && (r.Ok? <==> select(unspent(frm), rq.outvalue + rq.fee).Some?)
            && (r.Ok? ==> r.value.target == rq.outvalue + rq.fee)
            && (r.Ok? ==> MksendLayout(r.value.args, select(unspent(frm), rq.outvalue + rq.fee).value,
                                       rq.outs, frm, rq.fee))
  {
    assert PrepareMultiTx(frm, args, unspent, select) == Assemble(frm, rq, unspent, select);
  }

  /** A single payment with an integer fee: the target is the amount plus
      the fee, and `mksend` gets the selected inputs, the one request
      `to:value`, the sender as change address and the fee. */
  lemma PrepareTxTarget(frm: string, to: string, value: int, fee: int, unspent: string -> seq<Utxo>,
                        select: (seq<Utxo>, int) -> Option<seq<Utxo>>)
    requires ':' !in to
    ensures var r := PrepareTx(frm, to, value, Int(fee), unspent, select);
            && (r.Ok? <==> select(unspent(frm), value + fee).Some?)
            && (r.Ok? ==> r.value.target == value + fee)
            && (r.Ok? ==> MksendLayout(r.value.args, select(unspent(frm), value + fee).value,
                                       [Str(to + ":" + IntToString(value))], frm, fee))
  {
    var req := Str(to + ":" + IntToString(value));
    assert PrepareTx(frm, to, value, Int(fee), unspent, select) == PrepareMultiTx(frm, [req, Int(fee)], unspent, select);
    PaymentRequestReadsBack(to, value, Int(fee));
    PlanOfRequest(frm, [req, Int(fee)], Request([req], value, fee), unspent, select);
  }

  /** `send` is `preparetx` from the private key's address. */
  lemma SendIsPrepareFromKeyAddress(priv: string, to: string, value: int, fee: Value,
                                    privtoaddr: string -> string, unspent: string -> seq<Utxo>,
                                    select: (seq<Utxo>, int) -> Option<seq<Utxo>>)
    ensures Send(priv, to, value, fee, privtoaddr, unspent, select)
            == PrepareTx(privtoaddr(priv), to, value, fee, unspent, select)
  {
  }
}

=== FILE: estimate.dfy ===
/** The transaction size heuristic of `estimate_tx_size`: a fixed weight per
    input, a fixed weight per output and a constant overhead, in bytes. */
module SizeEstimate {
  import opened Transactions

  /** The formula as written: 148 bytes per output, 34 per input, 10 more. */
  function EstimateTxSize(tx: Tx): (r: nat)
    ensures r >= 10
  {
    |tx.outs| * 148 + 34 * |tx.ins| + 10
  }

  /** As written, one more input adds 34 bytes and one more output adds 148. */
  lemma EstimateMarginalWeights(tx: Tx, i: TxIn, o: TxOut)
    ensures EstimateTxSize(tx.(ins := tx.ins + [i])) == EstimateTxSize(tx) + 34
    ensures EstimateTxSize(tx.(outs := tx.outs + [o])) == EstimateTxSize(tx) + 148
    ensures EstimateTxSize(tx.(ins := [], outs := [])) == 10
  {
  }

  /** The usual heuristic: an input costs about 148 bytes (outpoint,
      signature, public key), an output about 34 (value and script). */
  function EstimateTxSizeIntended(tx: Tx): (r: nat)
    ensures r >= 10
  {
    148 * |tx.ins| + 34 * |tx.outs| + 10
  }

  /** With the intended weights an extra input adds 148 bytes and an extra
      output 34, and inputs outweigh outputs. */
  lemma IntendedMarginalWeights(tx: Tx, i: TxIn, o: TxOut)
    ensures EstimateTxSizeIntended(tx.(ins := tx.ins + [i])) == EstimateTxSizeIntended(tx) + 148
    ensures EstimateTxSizeIntended(tx.(outs := tx.outs + [o])) == EstimateTxSizeIntended(tx) + 34
    ensures EstimateTxSizeIntended(tx.(ins := [], outs := [])) == 10
  {
  }

  /** The two formulas agree exactly when a transaction has as many inputs
      as outputs; a one-input, two-output payment is estimated at 340 bytes
      as written against the usual 226. */
  lemma WeightsSwapped(tx: Tx, i: TxIn, o1: TxOut, o2: TxOut)
    ensures EstimateTxSize(tx) == EstimateTxSizeIntended(tx) <==> |tx.ins| == |tx.outs|
    ensures EstimateTxSize(Tx(1, [i], [o1, o2], 0)) == 340
    ensures EstimateTxSizeIntended(Tx(1, [i], [o1, o2], 0)) == 226
  {
  }
}

=== FILE: hdmultisig.dfy ===
/** BIP32 hierarchical deterministic multisig scripts (`bip32_hdm_script`,
    `bip32_hdm_addr`): split the arguments into extended keys, threshold and
    derivation path, derive one public key per extended key, and hand the
    sorted public keys to the multisig script builder. */
module HdMultisig {
  import opened Results
  import opened PyValues
  import opened StringOrder

  /** What the argument handling settles on: the extended keys, the threshold
      `req` and the derivation path. */
  datatype HdmCall = HdmCall(keys: seq<Value>, req: Value, path: Value)

  /** An argument longer than 40 characters is taken as an extended key. */
  predicate IsKeyArg(v: Value) {
    Len(v).Ok? && Len(v).value > 40
  }

  /** Index `b` ends the leading run of key arguments: every argument before
      it is a key and `args[b]` has a length of at most 40. */
  predicate KeyBoundary(args: seq<Value>, b: int) {
    && 0 <= b < |args|
    && Len(args[b]).Ok?
    && !IsKeyArg(args[b])
    && forall j :: 0 <= j < b ==> IsKeyArg(args[j])
  }

  lemma KeyBoundaryUnique(args: seq<Value>, b1: int, b2: int)
    requires KeyBoundary(args, b1) && KeyBoundary(args, b2)
    ensures b1 == b2
  {
  }

  /** The `while len(args[i]) > 40` loop from index `i`: it stops at the first
      short argument, and raises when it runs off the end or meets an
      argument without a length. */
  function KeyCount(args: seq<Value>, i: nat): (r: Result<nat>)
    requires i <= |args|
    requires forall j :: 0 <= j < i ==> IsKeyArg(args[j])
    decreases |args| - i
    ensures r.Ok? ==> KeyBoundary(args, r.value)
    ensures r.Ok? <==> exists b :: KeyBoundary(args, b)
  {
    if i == |args| then Err(IndexError)
    else
      var l := Len(args[i]);
      if l.Err? then Err(l.error)
      else if l.value > 40 then KeyCount(args, i + 1)
      else assert KeyBoundary(args, i); Ok(i)
  }

  /** `map(int, vs)`. */
  function ToInts(vs: seq<Value>): (r: Result<seq<int>>)
    ensures r.Ok? <==> forall t :: 0 <= t < |vs| ==> ToInt(vs[t]).Ok?
    ensures r.Ok? ==> |r.value| == |vs|
    ensures r.Ok? ==> forall t :: 0 <= t < |vs| ==> ToInt(vs[t]) == Ok(r.value[t])
  {
    if |vs| == 0 then Ok([])
    else
      var h := ToInt(vs[0]);
      var rest := ToInts(vs[1..]);
      if h.Err? then Err(h.error)
      else if rest.Err? then Err(rest.error)
      else Ok([h.value] + rest.value)
  }

  /** A list of integers as a Python value. */
  function IntList(ns: seq<int>): Value {
    List(seq(|ns|, t requires 0 <= t < |ns| => Int(ns[t])))
  }

  /** Lines 54-62: exactly three arguments are taken as `(keys, req, path)`;
      otherwise the leading arguments longer than 40 characters are the keys,
      the next is the threshold and the rest are the path indices. */
  function SplitHdmArgs(args: seq<Value>): (r: Result<HdmCall>)
    ensures |args| == 3 ==> (r.Ok? <==> Iter(args[0]).Ok?)
    ensures |args| == 3 && r.Ok? ==> r.value == HdmCall(Iter(args[0]).value, args[1], args[2])
    ensures |args| != 3 && r.Ok? ==>
              var b := |r.value.keys|;
              && KeyBoundary(args, b)
              && r.value.keys == args[..b]
              && r.value.req.Int?
              && ToInt(args[b]) == Ok(r.value.req.n)
              && r.value.path.List?
              && |r.value.path.items| == |args| - b - 1
              && forall t :: 0 <= t < |r.value.path.items| ==>
                   r.value.path.items[t].Int? && ToInt(args[b + 1 + t]) == Ok(r.value.path.items[t].n)
  {
    if |args| == 3 then
      var keys :- Iter(args[0]);
      Ok(HdmCall(keys, args[1], args[2]))
    else
      var b :- KeyCount(args, 0);
      var req :- ToInt(args[b]);
      var path :- ToInts(args[b + 1..]);
      Ok(HdmCall(args[..b], Int(req), IntList(path)))
  }

  /** The converse for the variadic form: when the key run ends at `b`, the
      threshold and every path index convert to integers, the split succeeds
      with the `b` leading arguments as keys. */
  lemma VariadicSplitSucceeds(args: seq<Value>, b: int)
    requires |args| != 3
    requires KeyBoundary(args, b)
    requires ToInt(args[b]).Ok?
    requires forall t :: b < t < |args| ==> ToInt(args[t]).Ok?
    ensures SplitHdmArgs(args).Ok?
    ensures SplitHdmArgs(args).value.keys == args[..b]
  {
    var c := KeyCount(args, 0);
    KeyBoundaryUnique(args, b, c.value);
    var tail := args[b + 1..];
    assert forall t :: 0 <= t < |tail| ==> tail[t] == args[b + 1 + t];
  }

  /** `map(lambda x: bip32_descend(x, path), keys)`. */
  function DerivePubs(keys: seq<Value>, path: Value, descend: (Value, Value) -> string): seq<string> {
    if |keys| == 0 then [] else [descend(keys[0], path)] + DerivePubs(keys[1..], path, descend)
  }

  lemma {:induction false} DeriveConcat(a: seq<Value>, b: seq<Value>, path: Value,
                                        descend: (Value, Value) -> string)
    ensures DerivePubs(a + b, path, descend) == DerivePubs(a, path, descend) + DerivePubs(b, path, descend)
    decreases |a|
  {
    if |a| > 0 {
      assert (a + b)[1..] == a[1..] + b;
      DeriveConcat(a[1..], b, path, descend);
    } else {
      assert a + b == b;
    }
  }

  /** Deriving from a rearranged key list gives a rearranged public key list. */
  lemma {:induction false} DeriveKeepsMultiset(a: seq<Value>, b: seq<Value>, path: Value,
                                               descend: (Value, Value) -> string)
    requires multiset(a) == multiset(b)
    ensures multiset(DerivePubs(a, path, descend)) == multiset(DerivePubs(b, path, descend))
    decreases |a|
  {
    if |a| > 0 {
      var j := FindCopy(a, b);
      var b' := b[..j] + b[j + 1..];
      DeriveKeepsMultiset(a[1..], b', path, descend);
      DeriveRemoveAt(b, j, path, descend);
      var da := DerivePubs(a[1..], path, descend);
      assert DerivePubs(a, path, descend) == [descend(a[0], path)] + da;
      assert multiset(DerivePubs(a, path, descend)) == multiset{descend(a[0], path)} + multiset(da);
    } else {
      assert |b| == |multiset(b)| == 0;
    }
  }

  /** The first element of `a` occurs in `b`, and taking it out of both leaves
      equal multisets. */
  lemma FindCopy<T>(a: seq<T>, b: seq<T>) returns (j: int)
    requires multiset(a) == multiset(b)
    requires |a| > 0
    ensures 0 <= j < |b| && b[j] == a[0]
    ensures multiset(a[1..]) == multiset(b[..j] + b[j + 1..])
  {
    assert a[0] in multiset(b);
    j :| 0 <= j < |b| && b[j] == a[0];
    assert a == [a[0]] + a[1..];
    assert b == b[..j] + [b[j]] + b[j + 1..];
    assert multiset(a[1..]) == multiset(a) - multiset{a[0]};
    assert multiset(b) == multiset(b[..j]) + multiset{b[j]} + multiset(b[j + 1..]);
    assert multiset(b[..j] + b[j + 1..]) == multiset(b[..j]) + multiset(b[j + 1..]);
  }

  /** The keys derived from `b` are those derived from `b` without its `j`th
      element, plus the one derived from it. */
  lemma DeriveRemoveAt(b: seq<Value>, j: int, path: Value, descend: (Value, Value) -> string)
    requires 0 <= j < |b|
    ensures multiset(DerivePubs(b, path, descend))
            == multiset(DerivePubs(b[..j] + b[j + 1..], path, descend)) + multiset{descend(b[j], path)}
  {
    assert b == b[..j] + ([b[j]] + b[j + 1..]);
    DeriveConcat(b[..j], [b[j]] + b[j + 1..], path, descend);
    DeriveConcat([b[j]], b[j + 1..], path, descend);
    DeriveConcat(b[..j], b[j + 1..], path, descend);
    assert DerivePubs([b[j]], path, descend) == [descend(b[j], path)];
  }

  /** bip32_hdm_script: the script builder `mkMultisig` receives an ordered
      arrangement of the derived public keys, and the threshold. */
  function HdmScript(args: seq<Value>, descend: (Value, Value) -> string,
                     mkMultisig: (seq<string>, Value) -> string): (r: Result<string>)
    ensures r.Ok? <==> SplitHdmArgs(args).Ok?
    ensures r.Ok? ==>
              var c := SplitHdmArgs(args).value;
              exists pubs :: && Sorted(pubs)
                             && multiset(pubs) == multiset(DerivePubs(c.keys, c.path, descend))
                             && r.value == mkMultisig(pubs, c.req)
  {
    var c :- SplitHdmArgs(args);
    Ok(mkMultisig(Sort(DerivePubs(c.keys, c.path, descend)), c.req))
  }

  /** bip32_hdm_addr: the address of the script. */
  function HdmAddr(args: seq<Value>, descend: (Value, Value) -> string,
                   mkMultisig: (seq<string>, Value) -> string, scriptaddr: string -> string): (r: Result<string>)
    ensures r.Ok? <==> SplitHdmArgs(args).Ok?
    ensures r.Ok? ==> r.value == scriptaddr(HdmScript(args, descend, mkMultisig).value)
  {
    var script :- HdmScript(args, descend, mkMultisig);
    Ok(scriptaddr(script))
  }

  /** Two argument lists that settle on the same threshold and path and on
      the same keys in any order give the same script and the same address. */
  lemma ScriptIgnoresKeyOrder(args1: seq<Value>, args2: seq<Value>, descend: (Value, Value) -> string,
                              mkMultisig: (seq<string>, Value) -> string, scriptaddr: string -> string)
    requires SplitHdmArgs(args1).Ok? && SplitHdmArgs(args2).Ok?
    requires SplitHdmArgs(args1).value.req == SplitHdmArgs(args2).value.req
    requires SplitHdmArgs(args1).value.path == SplitHdmArgs(args2).value.path
    requires multiset(SplitHdmArgs(args1).value.keys) == multiset(SplitHdmArgs(args2).value.keys)
    ensures HdmScript(args1, descend, mkMultisig) == HdmScript(args2, descend, mkMultisig)
    ensures HdmAddr(args1, descend, mkMultisig, scriptaddr) == HdmAddr(args2, descend, mkMultisig, scriptaddr)
  {
    var c1 := SplitHdmArgs(args1).value;
    var c2 := SplitHdmArgs(args2).value;
    DeriveKeepsMultiset(c1.keys, c2.keys, c1.path, descend);
    SortIgnoresOrder(DerivePubs(c1.keys, c1.path, descend), DerivePubs(c2.keys, c2.path, descend));
  }

  /** The list form: permuting the key list changes neither script nor
      address. */
  lemma ListFormIgnoresKeyOrder(keys1: seq<Value>, keys2: seq<Value>, req: Value, path: Value,
                                descend: (Value, Value) -> string,
                                mkMultisig: (seq<string>, Value) -> string, scriptaddr: string -> string)
    requires multiset(keys1) == multiset(keys2)
    ensures HdmScript([List(keys1), req, path], descend, mkMultisig)
            == HdmScript([List(keys2), req, path], descend, mkMultisig)
    ensures HdmAddr([List(keys1), req, path], descend, mkMultisig, scriptaddr)
            == HdmAddr([List(keys2), req, path], descend, mkMultisig, scriptaddr)
  {
    ScriptIgnoresKeyOrder([List(keys1), req, path], [List(keys2), req, path], descend, mkMultisig, scriptaddr);
  }

  /** The variadic form with the keys in front: the split keeps those keys
      as they are, and threshold and path come from the remaining arguments
      alone. */
  lemma VariadicSplitOfKeys(keys: seq<Value>, rest: seq<Value>)
    requires forall j :: 0 <= j < |keys| ==> IsKeyArg(keys[j])
    requires |keys| + |rest| != 3
    requires |rest| > 0 && Len(rest[0]).Ok? && !IsKeyArg(rest[0])
    ensures SplitHdmArgs(keys + rest).Ok? <==> ToInt(rest[0]).Ok? && ToInts(rest[1..]).Ok?
    ensures SplitHdmArgs(keys + rest).Ok? ==>
              SplitHdmArgs(keys + rest).value
              == HdmCall(keys, Int(ToInt(rest[0]).value), IntList(ToInts(rest[1..]).value))
  {
    var a := keys + rest;
    var b := |keys|;
    assert KeyBoundary(a, b);
    assert a[b] == rest[0];
    assert a[b + 1..] == rest[1..];
    assert a[..b] == keys;
    var c := KeyCount(a, 0);
    KeyBoundaryUnique(a, b, c.value);
  }

  /** The variadic form: permuting the leading key arguments changes neither
      script nor address, and a failing call fails either way. */
  lemma VariadicFormIgnoresKeyOrder(keys1: seq<Value>, keys2: seq<Value>, rest: seq<Value>,
                                    descend: (Value, Value) -> string,
                                    mkMultisig: (seq<string>, Value) -> string, scriptaddr: string -> string)
    requires multiset(keys1) == multiset(keys2)
    requires forall j :: 0 <= j < |keys1| ==> IsKeyArg(keys1[j])
    requires |keys1| + |rest| != 3
    requires |rest| > 0 && Len(rest[0]).Ok? && !IsKeyArg(rest[0])
    ensures HdmScript(keys1 + rest, descend, mkMultisig).Ok? <==> HdmScript(keys2 + rest, descend, mkMultisig).Ok?
    ensures HdmScript(keys1 + rest, descend, mkMultisig).Ok? ==>
              && HdmScript(keys1 + rest, descend, mkMultisig) == HdmScript(keys2 + rest, descend, mkMultisig)
              && HdmAddr(keys1 + rest, descend, mkMultisig, scriptaddr)
                 == HdmAddr(keys2 + rest, descend, mkMultisig, scriptaddr)
  {
    assert |keys1| == |multiset(keys1)| == |multiset(keys2)| == |keys2|;
    forall j | 0 <= j < |keys2|
      ensures IsKeyArg(keys2[j])
    {
      assert keys2[j] in multiset(keys1);
    }
    VariadicSplitOfKeys(keys1, rest);
    VariadicSplitOfKeys(keys2, rest);
    if SplitHdmArgs(keys1 + rest).Ok? {
      ScriptIgnoresKeyOrder(keys1 + rest, keys2 + rest, descend, mkMultisig, scriptaddr);
    }
  }

  // ---------------------------------------------------------------------------
  // Three variadic arguments (see Findings)

  /** As written, a variadic call with one key, the threshold and one path
      index has three arguments and is taken for the list form: the key
      string is iterated character by character and the path is the bare
      index. */
  lemma OneKeyVariadicCallMisread()
    ensures var key := "xpub0000000000000000000000000000000000000";
            var c := SplitHdmArgs([Str(key), Str("1"), Int(0)]);
            && c.Ok?
            && |c.value.keys| == 41
            && c.value.keys[0] == Str("x")
            && c.value.path == Int(0)
  {
  }

  /** The corrected split: the list form only when the first argument is a
      list, the variadic form otherwise. */
  function SplitHdmArgsIntended(args: seq<Value>): (r: Result<HdmCall>)
    ensures |args| == 3 && args[0].List? ==> r == Ok(HdmCall(args[0].items, args[1], args[2]))
    ensures !(|args| == 3 && args[0].List?) ==>
              (r.Ok? <==> exists b :: KeyBoundary(args, b) && ToInt(args[b]).Ok? && ToInts(args[b + 1..]).Ok?)
  {
    if |args| == 3 && args[0].List? then
      Ok(HdmCall(args[0].items, args[1], args[2]))
    else
      var b :- KeyCount(args, 0);
      var req :- ToInt(args[b]);
      var path :- ToInts(args[b + 1..]);
      Ok(HdmCall(args[..b], Int(req), IntList(path)))
  }

  /** With the corrected split every variadic call, whatever its length, is
      read as keys, threshold and path. The threshold is passed as a string
      (an integer has no length for the key loop to test). */
  lemma IntendedSplitReadsVariadicCalls(keys: seq<string>, req: int, path: seq<int>)
    requires forall j :: 0 <= j < |keys| ==> |keys[j]| > 40
    requires |IntToString(req)| <= 40
    ensures var args := seq(|keys|, j requires 0 <= j < |keys| => Str(keys[j])) + [Str(IntToString(req))]
                        + seq(|path|, t requires 0 <= t < |path| => Int(path[t]));
            SplitHdmArgsIntended(args) == Ok(HdmCall(args[..|keys|], Int(req), IntList(path)))
  {
    var ks := seq(|keys|, j requires 0 <= j < |keys| => Str(keys[j]));
    var ps := seq(|path|, t requires 0 <= t < |path| => Int(path[t]));
    var args := ks + [Str(IntToString(req))] + ps;
    var b := |keys|;
    forall j | 0 <= j < b
      ensures IsKeyArg(args[j])
    {
      assert args[j] == Str(keys[j]);
    }
    assert args[b] == Str(IntToString(req));
    ParseShowsInverse(req);
    assert KeyBoundary(args, b);
    var c := KeyCount(args, 0);
    KeyBoundaryUnique(args, b, c.value);
    assert ToInt(args[b]) == Ok(req);
    assert args[b + 1..] == ps;
    var tail := ToInts(ps);
    assert tail.Ok?;
    assert tail.value == path;
  }
}

=== FILE: inspect.dfy ===
/** `inspect`: resolve every input of a transaction to the previous output it
    spends, and report the fee, the per-address input totals and the list of
    outputs. */
module Inspect {
  import opened Results
  import opened Transactions

  /** One reported output: its address and value. */
  datatype AddrValue = AddrValue(address: string, value: nat)

  /** The report: the fee (input total minus output total, never clamped),
      the outputs in transaction order and the input total per address. */
  datatype Inspection = Inspection(fee: int, outs: seq<AddrValue>, ins: map<string, int>)

  /** The previous output an input spends: the funding transaction is fetched
      by hash and indexed by the outpoint's index. */
  function Resolve(inp: TxIn, fetchTx: string -> Option<Tx>): (r: Result<TxOut>)
    ensures r.Ok? <==> fetchTx(inp.outpoint.hash).Some?
                       && inp.outpoint.index < |fetchTx(inp.outpoint.hash).value.outs|
    ensures r.Ok? ==> r.value == fetchTx(inp.outpoint.hash).value.outs[inp.outpoint.index]
    ensures fetchTx(inp.outpoint.hash).None? ==> r == Err(FetchFailed)
  {
    var funding := fetchTx(inp.outpoint.hash);
    if funding.None? then Err(FetchFailed)
    else if inp.outpoint.index < |funding.value.outs| then Ok(funding.value.outs[inp.outpoint.index])
    else Err(IndexError)
  }

  /** Resolve the inputs in order, stopping at the first that fails. */
  function ResolveAll(ins: seq<TxIn>, fetchTx: string -> Option<Tx>): (r: Result<seq<TxOut>>)
    ensures r.Ok? <==> forall j :: 0 <= j < |ins| ==> Resolve(ins[j], fetchTx).Ok?
    ensures r.Ok? ==> |r.value| == |ins|
    ensures r.Ok? ==> forall j :: 0 <= j < |ins| ==> Resolve(ins[j], fetchTx) == Ok(r.value[j])
    decreases |ins|
  {
    if |ins| == 0 then Ok([])
    else
      var init := ins[..|ins| - 1];
      assert forall j :: 0 <= j < |init| ==> init[j] == ins[j];
      var before := ResolveAll(init, fetchTx);
      var last := Resolve(ins[|ins| - 1], fetchTx);
      if before.Err? then Err(before.error)
      else if last.Err? then Err(last.error)
      else Ok(before.value + [last.value])
  }

  /** Once a prefix of the inputs fails, the whole resolution fails the same
      way. */
  lemma {:induction false} ResolveAllKeepsFirstError(ins: seq<TxIn>, i: nat, fetchTx: string -> Option<Tx>)
    requires i <= |ins|
    requires ResolveAll(ins[..i], fetchTx).Err?
    ensures ResolveAll(ins, fetchTx) == ResolveAll(ins[..i], fetchTx)
    decreases |ins|
  {
    if i < |ins| {
      var init := ins[..|ins| - 1];
      assert init[..i] == ins[..i];
      ResolveAllKeepsFirstError(init, i, fetchTx);
    } else {
      assert ins[..i] == ins;
    }
  }

  /** The total value of a list of outputs. */
  function SumValues(outs: seq<TxOut>): int
    decreases |outs|
  {
    if |outs| == 0 then 0 else SumValues(outs[..|outs| - 1]) + outs[|outs| - 1].value
  }

  /** The total value of the outputs that pay to address `a`. */
  function SumAt(prev: seq<TxOut>, addrOf: string -> string, a: string): int
    decreases |prev|
  {
    if |prev| == 0 then 0
    else SumAt(prev[..|prev| - 1], addrOf, a) + (if addrOf(prev[|prev| - 1].script) == a then prev[|prev| - 1].value else 0)
  }

  /** `ins[a] = ins.get(a, 0) + value`: one output credited to its address. */
  function Credit(m: map<string, int>, a: string, value: int): map<string, int> {
    m[a := (if a in m then m[a] else 0) + value]
  }

  /** The accumulation `ins[a] = ins.get(a, 0) + value`, output by output. */
  function AddressTotals(prev: seq<TxOut>, addrOf: string -> string): map<string, int>
    decreases |prev|
  {
    if |prev| == 0 then map[]
    else
      var m := AddressTotals(prev[..|prev| - 1], addrOf);
      var a := addrOf(prev[|prev| - 1].script);
      Credit(m, a, prev[|prev| - 1].value)
  }

  /** The accumulated map holds exactly the addresses some output pays to,
      each with the total those outputs carry. */
  lemma {:induction false} AddressTotalsContents(prev: seq<TxOut>, addrOf: string -> string)
    ensures forall a :: a in AddressTotals(prev, addrOf) <==> exists j :: 0 <= j < |prev| && addrOf(prev[j].script) == a
    ensures forall a :: a in AddressTotals(prev, addrOf) ==> AddressTotals(prev, addrOf)[a] == SumAt(prev, addrOf, a)
    decreases |prev|
  {
    if |prev| > 0 {
      var init := prev[..|prev| - 1];
      assert forall j :: 0 <= j < |init| ==> init[j] == prev[j];
      AddressTotalsContents(init, addrOf);
      var m := AddressTotals(init, addrOf);
      forall b | b !in m
        ensures SumAt(init, addrOf, b) == 0
      {
        SumAtAbsent(init, addrOf, b);
      }
    }
  }

  /** An address no output pays to has a total of zero. */
  lemma {:induction false} SumAtAbsent(prev: seq<TxOut>, addrOf: string -> string, a: string)
    requires forall j :: 0 <= j < |prev| ==> addrOf(prev[j].script) != a
    ensures SumAt(prev, addrOf, a) == 0
    decreases |prev|
  {
    if |prev| > 0 {
      var init := prev[..|prev| - 1];
      assert forall j :: 0 <= j < |init| ==> init[j] == prev[j];
      SumAtAbsent(init, addrOf, a);
    }
  }

  /** The sum of the values a map holds at the keys in `s`. */
  ghost function KeysTotal(m: map<string, int>, s: set<string>): int
    requires s <= m.Keys
    decreases s
  {
    if s == {} then 0
    else
      var k :| k in s;
      m[k] + KeysTotal(m, s - {k})
  }

  /** The sum of the values of a map. */
  ghost function MapTotal(m: map<string, int>): int {
    KeysTotal(m, m.Keys)
  }

  /** Any key may be taken out first. */
  lemma {:induction false} KeysTotalRemove(m: map<string, int>, s: set<string>, k: string)
    requires s <= m.Keys && k in s
    ensures KeysTotal(m, s) == m[k] + KeysTotal(m, s - {k})
    decreases s
  {
    var k' :| k' in s && KeysTotal(m, s) == m[k'] + KeysTotal(m, s - {k'});
    if k' != k {
      KeysTotalRemove(m, s - {k'}, k);
      KeysTotalRemove(m, s - {k}, k');
      assert s - {k'} - {k} == s - {k} - {k'};
    }
  }

  /** The total over `s` only looks at the values at `s`. */
  lemma {:induction false} KeysTotalAgree(m1: map<string, int>, m2: map<string, int>, s: set<string>)
    requires s <= m1.Keys && s <= m2.Keys
    requires forall k :: k in s ==> m1[k] == m2[k]
    ensures KeysTotal(m1, s) == KeysTotal(m2, s)
    decreases s
  {
    if s != {} {
      var k :| k in s && KeysTotal(m1, s) == m1[k] + KeysTotal(m1, s - {k});
      KeysTotalRemove(m2, s, k);
      KeysTotalAgree(m1, m2, s - {k});
    }
  }

  /** Changing one entry changes the total by the difference. */
  lemma MapTotalUpdate(m: map<string, int>, k: string, v: int)
    ensures MapTotal(m[k := v]) == MapTotal(m) - (if k in m then m[k] else 0) + v
  {
    var m' := m[k := v];
    KeysTotalRemove(m', m'.Keys, k);
    assert m'.Keys - {k} == m.Keys - {k};
    KeysTotalAgree(m', m, m.Keys - {k});
    if k in m {
      KeysTotalRemove(m, m.Keys, k);
    } else {
      assert m.Keys - {k} == m.Keys;
    }
  }

  /** The per-address totals add up to the input total. */
  lemma {:induction false} AddressTotalsSum(prev: seq<TxOut>, addrOf: string -> string)
    ensures MapTotal(AddressTotals(prev, addrOf)) == SumValues(prev)
    decreases |prev|
  {
    if |prev| > 0 {
      var init := prev[..|prev| - 1];
      var m := AddressTotals(init, addrOf);
      var a := addrOf(prev[|prev| - 1].script);
      AddressTotalsSum(init, addrOf);
      MapTotalUpdate(m, a, (if a in m then m[a] else 0) + prev[|prev| - 1].value);
    } else {
      assert AddressTotals(prev, addrOf) == map[];
    }
  }

  /** One reported output. */
  function Describe(o: TxOut, addrOf: string -> string): AddrValue {
    AddrValue(addrOf(o.script), o.value)
  }

  /** One more resolved input extends the resolution, the total and the
      per-address map by its output. */
  lemma ResolvedStep(ins: seq<TxIn>, i: nat, fetchTx: string -> Option<Tx>, prev: seq<TxOut>,
                     addrOf: string -> string)
    requires i < |ins|
    requires ResolveAll(ins[..i], fetchTx) == Ok(prev)
    requires Resolve(ins[i], fetchTx).Ok?
    ensures var o := Resolve(ins[i], fetchTx).value;
            var m := AddressTotals(prev, addrOf);
            var a := addrOf(o.script);
            && ResolveAll(ins[..i + 1], fetchTx) == Ok(prev + [o])
            && SumValues(prev + [o]) == SumValues(prev) + o.value
            && AddressTotals(prev + [o], addrOf) == Credit(m, a, o.value)
  {
    var o := Resolve(ins[i], fetchTx).value;
    assert ins[..i + 1][..i] == ins[..i];
    assert ins[..i + 1][i] == ins[i];
    assert (prev + [o])[..|prev|] == prev;
  }

  /** The first input that does not resolve decides the error of the whole
      resolution. */
  lemma FailedStep(ins: seq<TxIn>, i: nat, fetchTx: string -> Option<Tx>, prev: seq<TxOut>)
    requires i < |ins|
    requires ResolveAll(ins[..i], fetchTx) == Ok(prev)
    requires Resolve(ins[i], fetchTx).Err?
    ensures ResolveAll(ins, fetchTx) == Err(Resolve(ins[i], fetchTx).error)
  {
    assert ins[..i + 1][..i] == ins[..i];
    assert ins[..i + 1][i] == ins[i];
    ResolveAllKeepsFirstError(ins, i + 1, fetchTx);
  }

  /** The first loop of `inspect`: resolve each input in order (a failed
      lookup or an index past the funding transaction's outputs aborts) and
      accumulate the input total and the per-address map. */
  method AccumulateInputs(ins: seq<TxIn>, fetchTx: string -> Option<Tx>, addrOf: string -> string)
    returns (r: Result<(int, map<string, int>)>)
    ensures r.Ok? <==> ResolveAll(ins, fetchTx).Ok?
    ensures r.Err? ==> r == Err(ResolveAll(ins, fetchTx).error)
    ensures r.Ok? ==> r.value.0 == SumValues(ResolveAll(ins, fetchTx).value)
    ensures r.Ok? ==> r.value.1 == AddressTotals(ResolveAll(ins, fetchTx).value, addrOf)
  {
    var isum := 0;
    var totals: map<string, int> := map[];
    ghost var prev: seq<TxOut> := [];
    var i := 0;
    while i < |ins|
      invariant 0 <= i <= |ins|
      invariant ResolveAll(ins[..i], fetchTx) == Ok(prev)
      invariant isum == SumValues(prev)
      invariant totals == AddressTotals(prev, addrOf)
    {
      var p := Resolve(ins[i], fetchTx);
      if p.Err? {
        FailedStep(ins, i, fetchTx, prev);
        return Err(p.error);
      }
      ResolvedStep(ins, i, fetchTx, prev, addrOf);
      var a := addrOf(p.value.script);
      totals := Credit(totals, a, p.value.value);
      isum := isum + p.value.value;
      prev := prev + [p.value];
      i := i + 1;
    }
    assert ins[..i] == ins;
    r := Ok((isum, totals));
  }

  /** The second loop of `inspect`: describe each output in order and sum
      their values. */
  method ListOutputs(outs: seq<TxOut>, addrOf: string -> string) returns (descs: seq<AddrValue>, osum: int)
    ensures osum == SumValues(outs)
    ensures |descs| == |outs|
    ensures forall t :: 0 <= t < |outs| ==> descs[t] == Describe(outs[t], addrOf)
  {
    descs := [];
    osum := 0;
    var j := 0;
    while j < |outs|
      invariant 0 <= j <= |outs|
      invariant osum == SumValues(outs[..j])
      invariant |descs| == j
      invariant forall t :: 0 <= t < j ==> descs[t] == Describe(outs[t], addrOf)
    {
      descs := descs + [Describe(outs[j], addrOf)];
      osum := osum + outs[j].value;
      assert outs[..j + 1][..j] == outs[..j];
      j := j + 1;
    }
    assert outs[..j] == outs;
  }

  /** inspect(tx): the fee is the input total minus the output total, the
      per-address map holds exactly the paying addresses with their totals
      and sums to the input total, and the outputs are listed in order. */
  method Inspect(tx: Tx, fetchTx: string -> Option<Tx>, addrOf: string -> string) returns (r: Result<Inspection>)
    ensures r.Ok? <==> ResolveAll(tx.ins, fetchTx).Ok?
    ensures r.Err? ==> r == Err(ResolveAll(tx.ins, fetchTx).error)
    ensures r.Ok? ==> r.value.fee == SumValues(ResolveAll(tx.ins, fetchTx).value) - SumValues(tx.outs)
    ensures r.Ok? ==> MapTotal(r.value.ins) == SumValues(ResolveAll(tx.ins, fetchTx).value)
    ensures r.Ok? ==> forall a :: a in r.value.ins ==> r.value.ins[a] == SumAt(ResolveAll(tx.ins, fetchTx).value, addrOf, a)
    ensures r.Ok? ==> forall a :: a in r.value.ins <==>
              exists j :: 0 <= j < |tx.ins| && addrOf(ResolveAll(tx.ins, fetchTx).value[j].script) == a
    ensures r.Ok? ==> |r.value.outs| == |tx.outs|
    ensures r.Ok? ==> forall j :: 0 <= j < |tx.outs| ==> r.value.outs[j] == Describe(tx.outs[j], addrOf)
  {
    var acc := AccumulateInputs(tx.ins, fetchTx, addrOf);
    if acc.Err? {
      return Err(acc.error);
    }
    var descs, osum := ListOutputs(tx.outs, addrOf);
    ghost var prev := ResolveAll(tx.ins, fetchTx).value;
    AddressTotalsSum(prev, addrOf);
    AddressTotalsContents(prev, addrOf);
    r := Ok(Inspection(acc.value.0 - osum, descs, acc.value.1));
  }

  /** Two inputs of 500000 and 300000 satoshis from the same address, one
      output of 750000: the fee is 50000 and the address is credited 800000. */
  lemma InspectFixture(addrOf: string -> string)
    ensures var funding := Tx(1, [], [TxOut(500000, "s1"), TxOut(300000, "s2")], 0);
            var fetchTx := (h: string) => if h == "f" then Some(funding) else None;
            var tx := Tx(1, [TxIn(Outpoint("f", 0), [], 0), TxIn(Outpoint("f", 1), [], 0)],
                         [TxOut(750000, "s3")], 0);
            var prev := ResolveAll(tx.ins, fetchTx);
            && prev == Ok([TxOut(500000, "s1"), TxOut(300000, "s2")])
            && SumValues(prev.value) - SumValues(tx.outs) == 50000
            && (addrOf("s1") == addrOf("s2") ==>
                  AddressTotals(prev.value, addrOf) == map[addrOf("s1") := 800000])
  {
    var funding := Tx(1, [], [TxOut(500000, "s1"), TxOut(300000, "s2")], 0);
    var fetchTx := (h: string) => if h == "f" then Some(funding) else None;
    var ins := [TxIn(Outpoint("f", 0), [], 0), TxIn(Outpoint("f", 1), [], 0)];
    var prev := [TxOut(500000, "s1"), TxOut(300000, "s2")];
    assert Resolve(ins[0], fetchTx) == Ok(prev[0]);
    assert Resolve(ins[1], fetchTx) == Ok(prev[1]);
    var first: seq<TxIn> := [ins[0]];
    assert first[..0] == [];
    assert ResolveAll(first, fetchTx) == Ok([] + [prev[0]]);
    assert [] + [prev[0]] == [prev[0]];
    assert ins[..1] == first;
    assert ResolveAll(ins, fetchTx) == Ok([prev[0]] + [prev[1]]);
    assert [prev[0]] + [prev[1]] == prev;
    assert prev[..1] == [prev[0]];
    assert [prev[0]][..0] == [];
    assert ResolveAll(ins, fetchTx) == Ok(prev);
  }
}

=== FILE: merkle.dfy ===
/** `merkle_prove`: the position of a transaction among its block's
    transaction hashes, handed with the header and the hashes to the proof
    builder. */
module MerkleLookup {
  import opened Results

  /** `hashes.index(h)`: the first position holding `h`; a hash that is not
      there raises `ValueError`. */
  function IndexOf(hashes: seq<string>, h: string): (r: Result<nat>)
    ensures r.Ok? <==> h in hashes
    ensures r.Err? ==> r.error == ValueError
    ensures r.Ok? ==> r.value < |hashes| && hashes[r.value] == h
    ensures r.Ok? ==> forall j :: 0 <= j < r.value ==> hashes[j] != h
  {
    if |hashes| == 0 then Err(ValueError)
    else if hashes[0] == h then Ok(0)
    else
      var rest := IndexOf(hashes[1..], h);
      assert forall j :: 0 < j < |hashes| ==> hashes[1..][j - 1] == hashes[j];
      if rest.Err? then
        assert h !in hashes[1..];
        Err(ValueError)
      else Ok(rest.value + 1)
  }

  /** The position is the only first occurrence: any index that holds `h`
      with no earlier copy is the one found. */
  lemma IndexOfUnique(hashes: seq<string>, h: string, i: nat)
    requires i < |hashes| && hashes[i] == h
    requires forall j :: 0 <= j < i ==> hashes[j] != h
    ensures IndexOf(hashes, h) == Ok(i)
  {
    assert h in hashes;
  }

  /** merkle_prove(txhash): the proof builder gets the block header, the
      hashes and the transaction's position; a transaction missing from the
      block raises `ValueError`. */
  function MerkleProve<P>(txhash: string, header: string, hashes: seq<string>,
                          mkProof: (string, seq<string>, nat) -> P): (r: Result<P>)
    ensures r.Ok? <==> txhash in hashes
    ensures r.Err? ==> r.error == ValueError
    ensures r.Ok? ==> exists i :: 0 <= i < |hashes| && hashes[i] == txhash
                                  && (forall j :: 0 <= j < i ==> hashes[j] != txhash)
                                  && r.value == mkProof(header, hashes, i)
  {
    var i :- IndexOf(hashes, txhash);
    Ok(mkProof(header, hashes, i))
  }
}

=== FILE: pyvalues.dfy ===
/** The Python 2 value semantics the composite operations rely on: dynamically
    typed arguments, `len`, iteration, `int()`, `str()` of an integer,
    `str.split` and list slicing. */
module PyValues {
  import opened Results

  /** A value reaching one of the variadic entry points. */
  datatype Value = Str(s: string) | Int(n: int) | List(items: seq<Value>)

  /** `len(v)`; an integer has no length. */
  function Len(v: Value): (r: Result<nat>)
    ensures r.Err? <==> v.Int?
  {
    match v
    case Str(s) => Ok(|s|)
    case List(xs) => Ok(|xs|)
    case Int(_) => Err(TypeError)
  }

  /** The elements `for x in v` visits: the items of a list, the one-character
      strings of a string. */
  function Iter(v: Value): (r: Result<seq<Value>>)
    ensures r.Ok? <==> !v.Int?
    ensures r.Ok? ==> |r.value| == Len(v).value
    ensures v.Str? ==> forall i :: 0 <= i < |v.s| ==> r.value[i] == Str([v.s[i]])
  {
    match v
    case Str(s) => Ok(seq(|s|, i requires 0 <= i < |s| => Str([s[i]])))
    case List(xs) => Ok(xs)
    case Int(_) => Err(TypeError)
  }

  // ---------------------------------------------------------------------------
  // int() and str() of integers

  /** The characters `str.strip()` removes: space, tab, newline, vertical tab,
      form feed and carriage return. */
  predicate IsSpace(c: char) {
    c == ' ' || '\t' <= c <= '\r'
  }

  predicate IsDigit(c: char) {
    '0' <= c <= '9'
  }

  predicate AllDigits(s: string) {
    |s| > 0 && forall i :: 0 <= i < |s| ==> IsDigit(s[i])
  }

  function TrimLeft(s: string): (r: string)
    ensures |r| <= |s|
    ensures |r| > 0 ==> !IsSpace(r[0])
    ensures |s| > 0 && !IsSpace(s[0]) ==> r == s
  {
    if |s| > 0 && IsSpace(s[0]) then TrimLeft(s[1..]) else s
  }

  function TrimRight(s: string): (r: string)
    ensures |r| <= |s|
    ensures |r| > 0 ==> !IsSpace(r[|r| - 1])
    ensures |s| > 0 && !IsSpace(s[|s| - 1]) ==> r == s
  {
    if |s| > 0 && IsSpace(s[|s| - 1]) then TrimRight(s[..|s| - 1]) else s
  }

  function DigitValue(c: char): nat
    requires IsDigit(c)
  {
    c as int - '0' as int
  }

  /** The number a string of decimal digits denotes, most significant first. */
  function DigitsValue(ds: string): nat
    requires forall i :: 0 <= i < |ds| ==> IsDigit(ds[i])
  {
    if |ds| == 0 then 0 else DigitsValue(ds[..|ds| - 1]) * 10 + DigitValue(ds[|ds| - 1])
  }

  /** Python 2 `int(s)` for a string: surrounding white space is ignored, an
      optional sign may be followed by white space, then one or more decimal
      digits. */
  function ParseInt(s: string): Option<int> {
    var t := TrimRight(TrimLeft(s));
    if |t| > 0 && (t[0] == '-' || t[0] == '+') && AllDigits(TrimLeft(t[1..])) then
      var m: int := DigitsValue(TrimLeft(t[1..]));
      Some(if t[0] == '-' then -m else m)
    else if AllDigits(t) then
      Some(DigitsValue(t))
    else
      None
  }

  /** `int(v)`. */
  function ToInt(v: Value): (r: Result<int>)
    ensures v.Int? ==> r == Ok(v.n)
    ensures v.List? ==> r == Err(TypeError)
  {
    match v
    case Int(n) => Ok(n)
    case Str(s) =>
      (match ParseInt(s)
       case Some(n) => Ok(n)
       case None => Err(ValueError))
    case List(_) => Err(TypeError)
  }

  function DigitChar(d: nat): (c: char)
    requires d < 10
    ensures IsDigit(c) && DigitValue(c) == d
  {
    ('0' as int + d) as char
  }

  function NatToString(n: nat): (r: string)
    ensures AllDigits(r)
    decreases n
  {
    if n < 10 then [DigitChar(n)] else NatToString(n / 10) + [DigitChar(n % 10)]
  }

  /** `str(n)` for an integer. */
  function IntToString(n: int): string {
    if n < 0 then "-" + NatToString(-n) else NatToString(n)
  }

  lemma {:induction false} DigitsOfNat(n: nat)
    ensures DigitsValue(NatToString(n)) == n
    decreases n
  {
    if n >= 10 {
      var a := NatToString(n / 10);
      var s := a + [DigitChar(n % 10)];
      assert s[..|s| - 1] == a;
      DigitsOfNat(n / 10);
    }
  }

  /** `int(str(n)) == n`: the decimal rendering of an integer parses back to it. */
  lemma ParseShowsInverse(n: int)
    ensures ParseInt(IntToString(n)) == Some(n)
    ensures ':' !in IntToString(n)
  {
    var s := IntToString(n);
    var m: nat := if n < 0 then -n else n;
    var ds := NatToString(m);
    DigitsOfNat(m);
    assert !IsSpace(s[0]);
    assert TrimLeft(s) == s;
    assert !IsSpace(s[|s| - 1]);
    assert TrimRight(s) == s;
    if n < 0 {
      assert s[1..] == ds;
      assert TrimLeft(ds) == ds;
    } else {
      assert !(s[0] == '-' || s[0] == '+');
    }
    assert forall i :: 0 <= i < |ds| ==> ds[i] != ':';
  }

  // ---------------------------------------------------------------------------
  // str.split

  /** `s.split(sep)`: the pieces between separators, never empty. */
  function Split(s: string, sep: char): (parts: seq<string>)
    ensures |parts| >= 1
    decreases |s|
  {
    if |s| == 0 then [""]
    else
      var rest := Split(s[1..], sep);
      if s[0] == sep then [""] + rest else [[s[0]] + rest[0]] + rest[1..]
  }

  /** `sep.join(parts)`. */
  function Join(parts: seq<string>, sep: char): string
    requires |parts| >= 1
  {
    if |parts| == 1 then parts[0] else parts[0] + [sep] + Join(parts[1..], sep)
  }

  /** Splitting loses nothing: joining the pieces with the separator gives back
      the string, and no piece contains the separator. */
  lemma {:induction false} SplitJoinInverse(s: string, sep: char)
    ensures Join(Split(s, sep), sep) == s
    ensures forall t :: 0 <= t < |Split(s, sep)| ==> sep !in Split(s, sep)[t]
    decreases |s|
  {
    if |s| > 0 {
      SplitJoinInverse(s[1..], sep);
      var rest := Split(s[1..], sep);
      if s[0] == sep {
        assert Split(s, sep)[1..] == rest;
        assert s == [sep] + s[1..];
      } else {
        var parts := Split(s, sep);
        assert parts[1..] == rest[1..];
        if |rest| == 1 {
          assert s == [s[0]] + s[1..];
        } else {
          assert rest[0] + [sep] + Join(rest[1..], sep) == s[1..];
          assert parts[0] + [sep] + Join(parts[1..], sep) == s;
        }
      }
    }
  }

  lemma {:induction false} SplitNoSeparator(s: string, sep: char)
    requires sep !in s
    ensures Split(s, sep) == [s]
    decreases |s|
  {
    if |s| > 0 {
      assert sep !in s[1..] by {
        forall i | 0 <= i < |s[1..]| ensures s[1..][i] != sep {
          assert s[1..][i] == s[i + 1];
        }
      }
      SplitNoSeparator(s[1..], sep);
      assert [s[0]] + s[1..] == s;
    }
  }

  lemma {:induction false} SplitAtFirst(a: string, sep: char, b: string)
    requires sep !in a
    ensures Split(a + [sep] + b, sep) == [a] + Split(b, sep)
    decreases |a|
  {
    var s := a + [sep] + b;
    if |a| == 0 {
      assert s[1..] == b;
    } else {
      assert sep !in a[1..] by {
        forall i | 0 <= i < |a[1..]| ensures a[1..][i] != sep {
          assert a[1..][i] == a[i + 1];
        }
      }
      SplitAtFirst(a[1..], sep, b);
      assert s[1..] == a[1..] + [sep] + b;
      assert [a[0]] + a[1..] == a;
    }
  }

  // ---------------------------------------------------------------------------
  // Slicing

  /** A Python slice bound resolved against a length: negative bounds count
      from the end and every bound is clamped into `0..len`. */
  function SliceBound(len: nat, i: int): (r: nat)
    ensures r <= len
  {
    if i < 0 then (if len + i < 0 then 0 else len + i)
    else if i > len then len else i
  }

  /** `xs[lo:hi]`. */
  function Slice<T>(xs: seq<T>, lo: int, hi: int): (r: seq<T>)
    ensures |r| <= |xs|
    ensures SliceBound(|xs|, lo) < SliceBound(|xs|, hi) ==>
              r == xs[SliceBound(|xs|, lo)..SliceBound(|xs|, hi)]
    ensures SliceBound(|xs|, lo) >= SliceBound(|xs|, hi) ==> r == []
  {
    var a := SliceBound(|xs|, lo);
    var b := SliceBound(|xs|, hi);
    if a < b then xs[a..b] else []
  }

  /** `xs[1:-1]`: everything but the first and the last element. */
  function Inner<T>(xs: seq<T>): (r: seq<T>)
    ensures |xs| >= 2 ==> r == xs[1..|xs| - 1]
    ensures |xs| < 2 ==> r == []
  {
    Slice(xs, 1, -1)
  }
}

=== FILE: results.dfy ===
/** Outcomes of the modelled operations: a value, or the Python exception the
    original code would raise. Collaborator failures get kinds of their own. */
module Results {

  /** The exceptions the composite operations can end in. */
  datatype Error =
    | IndexError      // a list index out of range, or `list.index` of a missing item
    | TypeError       // an operation applied to a value of the wrong Python type
    | ValueError      // `int()` of a string that is not a decimal integer
    | AttributeError  // `.split` called on a value that is not a string
    | FetchFailed     // a chain query (previous transaction) could not be resolved
    | SelectFailed    // UTXO selection raised, e.g. because funds do not cover the target

  /** A failure-compatible result, usable with `:-`. */
  datatype Result<+T> = Ok(value: T) | Err(error: Error) {

    predicate IsFailure() {
      Err?
    }

    function PropagateFailure<U>(): Result<U>
      requires Err?
    {
      Err(error)
    }

    function Extract(): T
      requires Ok?
    {
      value
    }
  }

  /** The conventional Some/None datatype, for collaborators that may decline. */
  datatype Option<+T> = None | Some(value: T)
}

=== FILE: stringorder.dfy ===
/** Python 2's `sorted` on a list of strings: the lexicographic order on
    character codes, and a sort that is fully determined by the multiset of
    its input. */
module StringOrder {

  /** Python 2 `a <= b` for byte strings: compare character by character, a
      proper prefix comes first. */
  predicate Le(a: string, b: string)
    decreases |a|
  {
    |a| == 0 || (|b| > 0 && (a[0] < b[0] || (a[0] == b[0] && Le(a[1..], b[1..]))))
  }

  lemma {:induction false} LeReflexive(a: string)
    ensures Le(a, a)
    decreases |a|
  {
    if |a| > 0 {
      LeReflexive(a[1..]);
    }
  }

  lemma {:induction false} LeTotal(a: string, b: string)
    ensures Le(a, b) || Le(b, a)
    decreases |a|
  {
    if |a| > 0 && |b| > 0 && a[0] == b[0] {
      LeTotal(a[1..], b[1..]);
    }
  }

  lemma {:induction false} LeAntisymmetric(a: string, b: string)
    requires Le(a, b) && Le(b, a)
    ensures a == b
    decreases |a|
  {
    if |a| > 0 {
      LeAntisymmetric(a[1..], b[1..]);
      assert a == [a[0]] + a[1..] && b == [b[0]] + b[1..];
    }
  }

  lemma {:induction false} LeTransitive(a: string, b: string, c: string)
    requires Le(a, b) && Le(b, c)
    ensures Le(a, c)
    decreases |a|
  {
    if |a| > 0 && a[0] == b[0] && b[0] == c[0] {
      LeTransitive(a[1..], b[1..], c[1..]);
    }
  }

  predicate Sorted(s: seq<string>) {
    forall i, j :: 0 <= i < j < |s| ==> Le(s[i], s[j])
  }

  /** Every element of `s` is at least `y`. */
  predicate Below(y: string, s: seq<string>) {
    forall j :: 0 <= j < |s| ==> Le(y, s[j])
  }

  /** A lower bound of every element of a multiset is a lower bound of any
      sequence holding those elements. */
  lemma BelowByMultiset(y: string, s: seq<string>, t: seq<string>)
    requires Below(y, s)
    requires multiset(t) <= multiset(s)
    ensures Below(y, t)
  {
    forall j | 0 <= j < |t|
      ensures Le(y, t[j])
    {
      assert t[j] in multiset(t);
      assert t[j] in multiset(s);
      var m :| 0 <= m < |s| && s[m] == t[j];
    }
  }

  /** Insert `x` into a sorted list in front of the first element not below it. */
  function Insert(x: string, s: seq<string>): (r: seq<string>)
    requires Sorted(s)
    ensures Sorted(r)
    ensures multiset(r) == multiset(s) + multiset{x}
    decreases |s|
  {
    if |s| == 0 then [x]
    else if Le(x, s[0]) then
      assert Below(x, s) by {
        forall j | 0 <= j < |s| ensures Le(x, s[j]) {
          if j > 0 {
            LeTransitive(x, s[0], s[j]);
          }
        }
      }
      assert s == [s[0]] + s[1..];
      [x] + s
    else
      var rest := Insert(x, s[1..]);
      assert Below(s[0], rest) by {
        LeTotal(x, s[0]);
        assert Below(s[0], s[1..] + [x]);
        assert multiset(rest) == multiset(s[1..] + [x]);
        BelowByMultiset(s[0], s[1..] + [x], rest);
      }
      assert s == [s[0]] + s[1..];
      [s[0]] + rest
  }

  /** `sorted(s)`: an ordered rearrangement of `s`. */
  function Sort(s: seq<string>): (r: seq<string>)
    ensures Sorted(r)
    ensures multiset(r) == multiset(s)
  {
    if |s| == 0 then []
    else
      assert s == [s[0]] + s[1..];
      Insert(s[0], Sort(s[1..]))
  }

  /** Two non-empty ordered lists with the same elements start alike. */
  lemma SortedHeadsAgree(a: seq<string>, b: seq<string>)
    requires Sorted(a) && Sorted(b)
    requires multiset(a) == multiset(b)
    requires |a| > 0 && |b| > 0
    ensures a[0] == b[0]
  {
    assert a[0] in multiset(b);
    var j :| 0 <= j < |b| && b[j] == a[0];
    assert b[0] in multiset(a);
    var i :| 0 <= i < |a| && a[i] == b[0];
    LeReflexive(a[0]);
    LeReflexive(b[0]);
    assert Le(b[0], a[0]) by {
      if j > 0 {
        assert Le(b[0], b[j]);
      }
    }
    assert Le(a[0], b[0]) by {
      if i > 0 {
        assert Le(a[0], a[i]);
      }
    }
    LeAntisymmetric(a[0], b[0]);
  }

  /** Two ordered lists with the same elements are the same list. */
  lemma {:induction false} SortedUnique(a: seq<string>, b: seq<string>)
    requires Sorted(a) && Sorted(b)
    requires multiset(a) == multiset(b)
    ensures a == b
    decreases |a|
  {
    assert |a| == |multiset(a)| == |multiset(b)| == |b|;
    if |a| > 0 {
      SortedHeadsAgree(a, b);
      assert a == [a[0]] + a[1..] && b == [b[0]] + b[1..];
      assert multiset(a) == multiset{a[0]} + multiset(a[1..]);
      assert multiset(b) == multiset{b[0]} + multiset(b[1..]);
      assert multiset(a[1..]) == multiset(a) - multiset{a[0]};
      assert multiset(b[1..]) == multiset(b) - multiset{b[0]};
      SortedUnique(a[1..], b[1..]);
    }
  }

  /** `sorted` depends only on which elements (with their multiplicities) it
      is given, never on the order they come in. */
  lemma SortIgnoresOrder(a: seq<string>, b: seq<string>)
    requires multiset(a) == multiset(b)
    ensures Sort(a) == Sort(b)
  {
    SortedUnique(Sort(a), Sort(b));
  }
}

=== FILE: transactions.dfy ===
/** Transactions in the deserialized form the composite operations work on.
    The byte codec itself lives outside this model. */
module Transactions {

  /** One element of a deserialized script: `None` for OP_0, a small integer
      for the number opcodes (and the raw value of other opcodes), a string for
      pushed data such as a signature, a public key or an embedded script. */
  datatype Item = Nil | Num(n: int) | Data(s: string)

  /** Python truthiness of a script element, as used by `filter(lambda x: x, ..)`. */
  predicate Truthy(x: Item) {
    match x
    case Nil => false
    case Num(n) => n != 0
    case Data(s) => |s| > 0
  }

  datatype Outpoint = Outpoint(hash: string, index: nat)

  /** An input; its script is held deserialized. */
  datatype TxIn = TxIn(outpoint: Outpoint, script: seq<Item>, sequence: nat)

  /** An output; its script is held as the raw string the address lookup reads. */
  datatype TxOut = TxOut(value: nat, script: string)

  datatype Tx = Tx(version: nat, ins: seq<TxIn>, outs: seq<TxOut>, locktime: nat)
}
